=== FILE: README.md ===
# ReSpring core, modelled in Dafny

ReSpring is a memoir-writing service. It has three parts:

- a Spring backend, for posts, chat and images;
- a Node.js media signalling server, which keeps the room registry for video calls;
- a Next.js client, whose API helpers wrap the backend.

This project models the bookkeeping at the centre of each part. It proves what that bookkeeping promises.

| file | module | models |
|---|---|---|
| `wrappers.dfy` | `Wrappers` | `Option`, `Result`, map lookup with a default, fresh id generation |
| `seqs.dfy` | `Seqs` | order-preserving removal of one value or a set of values (JavaScript's `filter(id => id !== x)`) |
| `signalling.dfy` | `Signalling` | the socket event handlers of `nodejs/server.js` over `clients`, `producers`, `consumers`, `producerOwners` and the transport table |
| `chat.dfy` | `Chat` | `ChatService`: rooms, members, messages, the room and keyword queries, lookup by room name |
| `images.dfy` | `Images` | the image table and `ImageRepositoryImpl.findImagesByTypeAndEntityId` |
| `posts.dfy` | `Posts` | `PostService`: create, update, delete, like toggling, DTO projection, the list queries |
| `jsvalues.dfy` | `JsValues` | JavaScript values, as the client helpers build and read them |
| `http.dfy` | `HttpCalls` | the request a client helper issues and what awaiting it produced |
| `book.dfy` | `BookApi` | `book.ts`: chapter folding, the autocomplete guard, the AI compile retry loop, status checks, the comment body |
| `tomorrow.dfy` | `TomorrowApi` | `tomorrow.ts`: the challenge detail transform, the participation test, the never-throwing wrappers |

## Modelling conventions

Every handler and service method is a pure transition. It maps a store and its arguments to a new store plus a result, or to an error.

- **Errors.** Exceptions become `Err` values, and the JavaScript `{ error }` acknowledgements become `Failed` replies.
- **Stores.** Repositories are maps from generated ids to rows. A counter yields fresh ids. A ghost `Valid` predicate records that every stored id lies below its counter, which is what makes the id-ordered scans complete.
- **Oracles.** Each result of a call into code outside the model is an input. This covers mediasoup object creation, `canConsume`, HTTP responses and the AI compiler's parse outcome.
- **JavaScript room ids.** A `roomId` the client sends is `Option<string>`, where `None` is `undefined`. It selects the property `String(roomId)`, so a missing id files state under `"undefined"`. The `!roomId` guards reject exactly `None` and `""`.
- **Truthiness.** An empty array is truthy. So `if (!producers[roomId])` in `closeProducer` short-circuits only for a room with no entry at all.
- **Partners.** Most operations have a partner property, stated as an invariant or a lemma. The list projections (`ListPosts`, `GetPopularPosts`) and the request builders are stated per input, with composition lemmas as their partners. The request wrappers of tomorrow.ts have only injectivity facts about the requests they build (`TomorrowApi.ChallengeRequestsIdentify`, `TomorrowApi.RecordRequestIdentifies`), which are weaker than a partner property. Examples:
  - the registry invariant `Signalling.Inv`, preserved by every event;
  - idempotence of `addUserToRoom`, `markMessageAsRead` and `closeProducer`;
  - the double toggle of a like;
  - the delete-then-save image law;
  - iff characterisations of the filters.

`Signalling.Inv` also shows that the empty-id guard of `getProducers` is redundant in every reachable state: no producer list is ever filed under `""`.

## Model

| member | source | states |
|---|---|---|
| Wrappers.FreshKey | backend/src/main/java/org/ssafy/respring/domain/chat/service/ChatService.java:37-50 | the id a save assigns is not yet in use and is at least the counter; when every id lies below the counter, the counter itself |
| Seqs.Without | nodejs/server.js:150 | filtering out a value keeps exactly the other elements: membership iff different from the value, every other element's multiplicity unchanged |
| Seqs.WithoutAll | nodejs/server.js:231-235 | filtering out a set of values keeps exactly the elements outside the set |
| Seqs.WithoutAllCount | nodejs/server.js:231-235 | every element outside the removed set keeps its multiplicity |
| Seqs.WithoutAppend | nodejs/server.js:150 | the filter distributes over concatenation, so the kept elements stay in their relative order |
| Seqs.WithoutIsWithoutAll | nodejs/server.js:231-235 | removing one value is removing the singleton set of it |
| Seqs.WithoutAllTwice | nodejs/server.js:231-235 | two successive filters are one filter by the union of the removed sets |
| Seqs.WithoutAllEmpty | nodejs/server.js:231-235 | removing no value changes nothing |
| Seqs.WithoutIdempotent | nodejs/server.js:150 | filtering an already filtered list again changes nothing |
| Signalling.Key | nodejs/server.js:104-107 | the property a room id selects is empty exactly for the empty string, never for a missing id |
| Signalling.OnCreateTransport | nodejs/server.js:61-84 | a created transport is recorded and its id returned, with nothing else changed; a library error is returned as the reply and changes nothing |
| Signalling.OnProduce | nodejs/server.js:104-145 | a falsy room id, an unknown transport or a library error replies with the error and changes nothing. On success the producer is appended to the room's list (created if absent) and recorded under the socket with its room; every other client of the room gets a `triggerConsumeNew` in client-list order; nothing else changes |
| Signalling.OnCloseProducer | nodejs/server.js:147-158 | with no list for the room nothing happens. Otherwise every occurrence of the id leaves the list, other ids keep their multiplicities, the entry is deleted iff no other id remains, a `removeConsumer` is emitted to the socket.io room named by the room id, and no other room or object changes |
| Signalling.OnGetProducers | nodejs/server.js:160-170 | the reply is the room's producer list, or `[]` for an empty id or an unknown room; no state changes |
| Signalling.OnConsume | nodejs/server.js:172-212 | a falsy room id, an unknown transport, `canConsume` false or a library error replies with the error and changes nothing. Otherwise the consumer is filed under room and socket, replacing any earlier one, and only the consumers object changes |
| Signalling.OnJoinRoom | nodejs/server.js:214-218 | the socket is appended to the room's client list, created if absent, with no duplicate check; nothing else changes |
| Signalling.RemoveClient | nodejs/server.js:224-227 | after a disconnect the socket is in no client list, no list is empty, a room keeps its entry iff it had another client, and each kept list is the old list filtered |
| Signalling.CleanupProducers | nodejs/server.js:231-236 | the cleanup loop leaves every room key in place and filters out of each room's list exactly the producers the socket's records name in that room |
| Signalling.CleanupFirstRecord | nodejs/server.js:231-236 | handling the first ownership record and then the rest removes exactly what the whole record list names |
| Signalling.OwnedInCons | nodejs/server.js:231-236 | the producers the record list names in a room are those of the first record plus those of the rest |
| Signalling.LiveRecords | nodejs/server.js:231-234 | the ownership records the cleanup finds a producer list for: exactly those whose room has a list, in record order, all of them when every room still has one |
| Signalling.LiveRecordsCount | nodejs/server.js:231-234 | each such record keeps its multiplicity, and no other record is kept |
| Signalling.CleanupNotices | nodejs/server.js:234-238 | one `removeConsumer` per ownership record whose room still has a producer list, in record order, and no other message |
| Signalling.OnDisconnect | nodejs/server.js:220-242 | the socket leaves every client list and emptied lists go. Its owned producers are filtered out of their rooms' lists, which stay even when empty. Its ownership entry is deleted; transports and consumers are untouched; no reply. The messages are one `removeConsumer` per owned producer whose room still has a list, in record order, and none for a socket that owned nothing |
| Signalling.OnRequestConsume | nodejs/server.js:244-268 | with producers in the room, every other client of the room gets a `triggerConsume`, in order; otherwise nothing is sent; no state changes |
| Signalling.HandlePreservesInv | nodejs/server.js:104-242 | every event preserves the registry invariant: no empty client or ownership list, and no producer list, consumer map or ownership record under the empty room id. A client list under `""` can arise, since `joinRoom` has no falsy guard |
| Signalling.ProducePreservesInv | nodejs/server.js:107-132 | `produce` records ownership only under a non-empty room id |
| Signalling.GetProducersIsLookup | nodejs/server.js:160-170 | in every reachable state, `getProducers` answers the room's list, or `[]`, without needing its empty-id guard |
| Signalling.JoinRoomTwice | nodejs/server.js:214-218 | joining twice leaves the socket twice in the room's list |
| Signalling.AddresseesOfTargeted | nodejs/server.js:135-140 | the per-socket notices built for a target list are addressed to exactly that list |
| Signalling.ProduceNotifiesOthers | nodejs/server.js:135-140 | after a successful `produce` a socket is notified iff it is a client of the room other than the producer, once per occurrence in the list |
| Signalling.RequestConsumeNotifiesOthers | nodejs/server.js:247-264 | `triggerConsume` notifies exactly the room's other clients when the room has a producer, and nobody otherwise |
| Signalling.CloseProducerIdempotent | nodejs/server.js:147-158 | closing the same producer twice leaves the registry as closing it once |
| Signalling.DisconnectRemovesOwnedProducers | nodejs/server.js:231-236 | after a disconnect, no producer the socket owned remains in its room's list |
| Signalling.DisconnectKeepsEmptyProducerList | nodejs/server.js:231-241 | in the same state, disconnecting the only producer's owner leaves the room an empty list, while `closeProducer` deletes the entry |
| Chat.CreateRoom | backend/src/main/java/org/ssafy/respring/domain/chat/service/ChatService.java:32-51 | a null or empty id list fails and stores nothing. Otherwise a new room under a fresh id holds one member per input id, in input order with duplicates kept; messages are untouched |
| Chat.AddUserToRoom | backend/src/main/java/org/ssafy/respring/domain/chat/service/ChatService.java:62-77 | an unknown room fails. A member already present changes nothing; otherwise the user is appended and only that room changes |
| Chat.AddUserIdempotent | backend/src/main/java/org/ssafy/respring/domain/chat/service/ChatService.java:71-74 | adding the same user a second time returns the same room and store as the first |
| Chat.AddUserKeepsNoDuplicates | backend/src/main/java/org/ssafy/respring/domain/chat/service/ChatService.java:71-74 | a member list without duplicates stays without duplicates |
| Chat.SaveMessage | backend/src/main/java/org/ssafy/respring/domain/chat/service/ChatService.java:89-110 | an unknown room fails. Otherwise exactly one new message is stored, unread and linked to room and user, with the given receiver and content and a null sender, and the response mirrors the stored fields |
| Chat.DeleteMessage | backend/src/main/java/org/ssafy/respring/domain/chat/service/ChatService.java:136-143 | an unknown message fails; a requester who does not own it fails and the message stays; otherwise exactly that message is removed |
| Chat.MarkMessageAsRead | backend/src/main/java/org/ssafy/respring/domain/chat/service/ChatService.java:145-150 | an unknown message fails; otherwise its read flag is set and nothing else changes |
| Chat.MarkMessageAsReadIdempotent | backend/src/main/java/org/ssafy/respring/domain/chat/service/ChatService.java:145-150 | marking a message read twice is marking it once |
| Chat.Select | backend/src/main/java/org/ssafy/respring/domain/chat/service/ChatService.java:152-158 | a row is in the scan iff its id is in range and its stored message answers the query; rows come in strictly increasing id order |
| Chat.GetMessages | backend/src/main/java/org/ssafy/respring/domain/chat/service/ChatService.java:152-154 | every listed message belongs to the room and every message of the room is listed; the query fixes no order, and the model lists by increasing id |
| Chat.SearchMessages | backend/src/main/java/org/ssafy/respring/domain/chat/service/ChatService.java:156-158 | listed messages are the room's text messages containing the keyword, all of them; the query fixes no order, and the model lists by increasing id |
| Chat.SearchWithinRoom | backend/src/main/java/org/ssafy/respring/domain/chat/service/ChatService.java:152-158 | every search hit is also listed for the room |
| Chat.DeletedMessageNotListed | backend/src/main/java/org/ssafy/respring/domain/chat/service/ChatService.java:136-154 | a message its owner deleted no longer appears in its room's listing |
| Chat.RoomsNamed | backend/src/main/java/org/ssafy/respring/domain/chat/service/ChatService.java:57-60 | a room is found iff its id is in range and it has the name; ids increase strictly |
| Chat.FindRoomByName | backend/src/main/java/org/ssafy/respring/domain/chat/service/ChatService.java:57-60 | the result is null iff no room has the name; a returned room has the name and is the only one; the lookup fails only when two distinct rooms share the name |
| Images.ValueOf | backend/src/main/java/org/ssafy/respring/domain/image/repository/ImageRepositoryImpl.java:26 | a type name resolves iff it names a declared constant, and to that constant; otherwise the lookup fails with the name |
| Images.Matching | backend/src/main/java/org/ssafy/respring/domain/image/repository/ImageRepositoryImpl.java:24-29 | a row is kept iff it has the type and the entity id |
| Images.MatchingCount | backend/src/main/java/org/ssafy/respring/domain/image/repository/ImageRepositoryImpl.java:24-29 | every matching row is kept as often as the table holds it, and no other row at all |
| Images.FindImagesByTypeAndEntityId | backend/src/main/java/org/ssafy/respring/domain/image/repository/ImageRepositoryImpl.java:23-30 | an unknown type name fails. Otherwise every returned image has the named type and the entity id and is stored, and every stored match is returned as often as it is stored; the table is only read |
| Images.MatchingAppend | backend/src/main/java/org/ssafy/respring/domain/image/repository/ImageRepositoryImpl.java:24-29 | the lookup distributes over concatenation of tables |
| Images.MatchingAll | backend/src/main/java/org/ssafy/respring/domain/image/repository/ImageRepositoryImpl.java:24-29 | a table whose rows all match is returned whole |
| Images.MatchingNone | backend/src/main/java/org/ssafy/respring/domain/image/repository/ImageRepositoryImpl.java:24-29 | a table with no matching row yields nothing |
| Images.DeleteThenSave | backend/src/main/java/org/ssafy/respring/domain/post/service/PostService.java:94-102 | after deleting an entity's images and saving new ones, the entity's images are exactly the new rows |
| Images.SaveKeepsOtherEntities | backend/src/main/java/org/ssafy/respring/domain/post/service/PostService.java:53-56 | saving images for one entity does not change any other entity's lookup |
| Posts.GetUserById | backend/src/main/java/org/ssafy/respring/domain/post/service/PostService.java:204-207 | a known user id yields that user with its nickname; an unknown one fails |
| Posts.CreatePostWithImages | backend/src/main/java/org/ssafy/respring/domain/post/service/PostService.java:38-59 | an unknown user fails. Otherwise one new post under a fresh id has the request's fields, no likes, no liked users, no comments and the user as owner. Images are saved only for a non-null, non-empty file list; other posts are unchanged and the store invariant is kept |
| Posts.UpdatePost | backend/src/main/java/org/ssafy/respring/domain/post/service/PostService.java:65-108 | the post is looked up before the user, then ownership is checked. On success the three fields take the request's values and nothing else of the post changes. The save flag holds iff some field differed. Images are deleted for a non-empty deletion list, then the uploads are added |
| Posts.UpdateReplacesAllImages | backend/src/main/java/org/ssafy/respring/domain/post/service/PostService.java:94-102 | with a non-empty deletion list, whichever ids it names, the post's images afterwards are exactly the uploaded ones |
| Posts.UpdateKeepsImagesWithoutDeletion | backend/src/main/java/org/ssafy/respring/domain/post/service/PostService.java:94-102 | without a deletion list the post keeps its images and the uploads follow them, in the table order the model chooses for the image query |
| Posts.DeletePost | backend/src/main/java/org/ssafy/respring/domain/post/service/PostService.java:114-130 | the same not-found, user and ownership failures as an update. On success exactly that post goes, with all of its images, and the store invariant is kept |
| Posts.ToggleLike | backend/src/main/java/org/ssafy/respring/domain/post/service/PostService.java:190-198 | an unknown post fails. Otherwise only the requester's membership in the liked set flips, the count equals the set's size, and nothing else changes |
| Posts.ToggleLikeTwice | backend/src/main/java/org/ssafy/respring/domain/post/service/PostService.java:190-198 | toggling twice restores the liked set, and the whole store when the count agreed with the set |
| Posts.ToCommentDto | backend/src/main/java/org/ssafy/respring/domain/post/service/PostService.java:218-229 | a comment's DTO carries its id, content and author; its parent id is null iff the comment has no parent |
| Posts.ToResponseDto | backend/src/main/java/org/ssafy/respring/domain/post/service/PostService.java:212-245 | the DTO carries the post's fields, its POST images' URLs and whether the viewer liked it, plus one comment DTO per comment, in order; the comment count is that list's length |
| Posts.GetPost | backend/src/main/java/org/ssafy/respring/domain/post/service/PostService.java:135-139 | a stored post yields its DTO; an unknown id fails |
| Posts.ListPosts | backend/src/main/java/org/ssafy/respring/domain/post/service/PostService.java:141-174 | one DTO per repository row, in the repository's order |
| Posts.ListPostsAppend | backend/src/main/java/org/ssafy/respring/domain/post/service/PostService.java:141-174 | listing two batches of rows in turn gives the concatenation of their listings |
| Posts.GetPopularPosts | backend/src/main/java/org/ssafy/respring/domain/post/service/PostService.java:177-188 | one DTO per query row, in order |
| Posts.PopularIgnoresCommentCounts | backend/src/main/java/org/ssafy/respring/domain/post/service/PostService.java:177-188 | the result does not depend on the comment counts the query computes |
| Posts.CreateThenGet | backend/src/main/java/org/ssafy/respring/domain/post/service/PostService.java:38-59 | a post created without files reads back with the request's fields and the owner's nickname, no likes, no images and no comments |
| JsValues.Get | frontend/src/lib/api/tomorrow.ts:37-38 | a present property reads as its value and a missing one as `undefined` |
| BookApi.MessageOrFallback | frontend/src/lib/api/book.ts:114-118 | the server's message is used iff present and non-empty; otherwise the helper's own fallback text, abstracted to the token `Fallback` (for `updateBook` and `deleteBook` that text includes the book id) |
| BookApi.ConvertToContent | frontend/src/lib/api/book.ts:52-57 | the keys are exactly the chapter titles, no chapter gives an empty map, and a repeated title keeps the text of its last chapter |
| BookApi.FoldStep | frontend/src/lib/api/book.ts:53-56 | adding one more chapter to the object built so far gives the object of the longer prefix: its title joins the keys and it becomes the last chapter of that title |
| BookApi.GetAllBooksAutocomplete | frontend/src/lib/api/book.ts:289-309 | a request, a GET of the title autocompletion with the query, is made iff the query has at least two UTF-16 code units, as `query.length` counts them; a shorter query answers `[]`; the server's list is returned and a rejection is rethrown |
| BookApi.Utf16Length | frontend/src/lib/api/book.ts:292 | `query.length` counts each character once, or twice when it lies outside the Basic Multilingual Plane: never less than the characters, never more than twice, equal iff all lie inside it |
| BookApi.Utf16LengthAppend | frontend/src/lib/api/book.ts:292 | the length of a concatenation is the sum of the lengths |
| BookApi.AutocompleteSingleCharacters | frontend/src/lib/api/book.ts:292 | a lone emoji is long enough to be sent to the server; a lone letter is not |
| BookApi.UpdateBook | frontend/src/lib/api/book.ts:84-119 | a PUT of `/books/{bookId}`; true iff the answered status is 200 or 204, false for any other status; a rejection is rethrown with the server's message or the fallback |
| BookApi.DeleteBook | frontend/src/lib/api/book.ts:124-142 | a DELETE of `/books/{bookId}`; true iff the answered status is 200 or 204, false for any other status; a rejection is rethrown with the server's message or the fallback |
| BookApi.DeleteBookComment | frontend/src/lib/api/book.ts:460-474 | a DELETE of `/comments/books/{commentId}`; true iff the answered status is 200, 201 or 204; a rejection is rethrown wrapped |
| BookApi.StatusChecksCompared | frontend/src/lib/api/book.ts:464-470 | `updateBook` and `deleteBook` agree on every response; `deleteBookComment` accepts all they accept, and 201 besides |
| BookApi.NewBookCommentDto | frontend/src/lib/api/book.ts:441-444 | the body has `content` and `bookId`, and `parentId` iff one was given, with the given values |
| BookApi.CreateNewBookComment | frontend/src/lib/api/book.ts:435-457 | the body above is POSTed to `/comments/books`; the server's comment is returned; any failure becomes the fixed error |
| BookApi.CompileBookByAI | frontend/src/lib/api/book.ts:491-526 | at most three requests, every one but the last unparsable, and an unparsable response is followed by another request until three were made. The result is the first parsed content; another failure is rethrown at once and only a failed request is; giving up happens iff all three were unparsable |
| TomorrowApi.TransformChallengeDetail | frontend/src/lib/api/tomorrow.ts:35-39 | `isLike` is the input's `liked` and `isParticipating` its `participating`, `undefined` when missing; every other field is copied and no other key appears |
| TomorrowApi.TransformIdempotent | frontend/src/lib/api/tomorrow.ts:35-39 | transforming an object whose flags already agree with its fields returns it unchanged |
| TomorrowApi.CheckParticipationStatus | frontend/src/lib/api/tomorrow.ts:235-243 | true iff the fetch succeeded and some participated challenge has the id; a failed fetch answers false |
| TomorrowApi.JoinChallenge | frontend/src/lib/api/tomorrow.ts:85-93 | a POST to `/challenges/{id}/join`; true iff the request resolved; any error gives false |
| TomorrowApi.LeaveChallenge | frontend/src/lib/api/tomorrow.ts:98-106 | a DELETE of `/challenges/{id}/leave`; true iff the request resolved; any error gives false |
| TomorrowApi.ToggleChallengeLike | frontend/src/lib/api/tomorrow.ts:111-119 | a POST to `/challenges/{id}/like`; true iff the request resolved; any error gives false |
| TomorrowApi.RecordChallengeSuccess | frontend/src/lib/api/tomorrow.ts:181-191 | a POST to `/records/{id}` carrying the flag as query parameter and in the body; true iff the request resolved; any error gives false |
| TomorrowApi.RecordRequestIdentifies | frontend/src/lib/api/tomorrow.ts:181-191 | equal success-record requests mean the same challenge and the same flag, and the query flag reads `true` iff the body flag is true |
| TomorrowApi.ChallengeRequestsIdentify | frontend/src/lib/api/tomorrow.ts:85-119 | join, leave and like requests never coincide, and two requests of one action are equal iff they name the same challenge |

## Left out

- The mediasoup worker, router, transports and their `connect`, `produce` and `consume` calls are foreign library code (nodejs/server.js:25-47, 86-102). Their results are event inputs. `connectTransport` and `getRouterRtpCapabilities` touch no registry state and are not modelled.
- socket.io delivery of the emitted messages is not modelled; the model lists the messages each handler emits and their addressees. `removeConsumer` goes to the socket.io room named by the room id (nodejs/server.js:157, 237), but no socket ever joins such a room, because `joinRoom` only records the socket in the registry. As written, that message reaches no client.
- Interleaving of asynchronous handlers is not modelled. Each event is one atomic transition.
- The signalling registries are plain JavaScript objects, and the model reads them as maps. A room id that names an inherited `Object.prototype` member (`"constructor"`, `"toString"`, …) is an ordinary key in the model, where the source finds the inherited function. The consequences are listed per handler below.
- Signalling.OnJoinRoom: for such a room id the source calls `push` on the inherited function and throws a TypeError that no handler catches, which crashes the server process; the model appends the socket.
- Signalling.OnProduce: for such a room id the source throws after the library call succeeded, and its catch replies with an error; the model replies with success.
- Signalling.OnGetProducers: for `"constructor"` the source answers the inherited `Object` function, and for `"__proto__"` it answers `Object.prototype`; the model answers `[]`.
- Signalling.OnConsume: for `"__proto__"` the source reads `Object.prototype` as the room's consumer map and writes the consumer into it under the socket id, so every registry object then inherits that entry. From then on `producerOwners[socket.id]` finds the consumer. The socket's next `produce` replies success, then throws on `push`, so no ownership record is made and no `triggerConsumeNew` is sent. If the socket never produced, its `disconnect` throws in `forEach` after the client lists were cleaned. The model files the consumer under the ordinary key `"__proto__"` and nothing else changes.
- Signalling.OnCloseProducer: for `"constructor"` the source throws; the model does nothing.
- Signalling.OnRequestConsume: for `"constructor"` the source throws; the model does nothing.
- An event sent without a payload makes every handler throw while destructuring `undefined`; every modelled event carries its payload.
- Numeric room ids are not modelled: a client sending the number `0` would fail the falsy check, whereas the model's room ids are strings.
- `disconnect` leaves the socket's consumers filed under their rooms. The model reproduces this: `OnDisconnect` does not touch `consumers`.
- `saveFileMessage` creates directories and copies files under random UUID names. That is filesystem I/O and randomness, so it is left out.
- `getAllRooms`, `findById` and `saveChatRoom` delegate directly to the repository, and are left out.
- Timestamps (`LocalDateTime.now()`) are absent from the stored rows and the DTOs.
- Images.FindImagesByTypeAndEntityId: the image query declares no order, and the image service is not part of this model, so the order of a post's image URLs is whatever the database returns. The model chooses table (insertion) order, and `Images.Matching`, `Images.ImageUrls`, `Posts.ToResponseDto` and `Posts.UpdateKeepsImagesWithoutDeletion` state their order in those terms.
- Chat.AddUserToRoom: the membership test compares the room's users with a new `User` carrying only the id. The `User` entity is not part of this model, so the model assumes `User.equals` compares ids only. If it kept object identity, every call would append, and Chat.AddUserIdempotent would not hold of the program.
- Chat.GetMessages: `findByChatRoomId` and `findByContentContainingAndChatRoomId` declare no order, so the order of their result is whatever the database returns; the model chooses increasing id order.
- Chat.SearchMessages: `Containing` becomes a SQL `LIKE`, whose case sensitivity depends on the database collation, which is not part of this model; the model matches the keyword as an exact, case-sensitive substring.
- Chat.SaveMessage: the sender name is read with `getUsername()` from a `User` that has only its id set. The `User` entity is not part of this model; the model assumes `getUsername()` is a plain getter and so stores a null sender.
- UUID parsing is left out; user ids are their canonical text.
- The repository queries behind `getAllPosts`, `getMyPosts`, `getPostsByCursor`, `searchPostsByTitle`, `filterPostsByCategory` and `getPopularPosts` are not modelled. This covers their filters, orders, cursor and join. Their rows are inputs, and the model states the projection the service applies to them.
- Posts.UpdatePost: the request's title, content and category are non-null strings in the model. In Java a null title passes the `equals` test at PostService.java:80 and is stored; a later update of that post then throws at the same line, since `equals` is called on the stored null. Null request fields, and the exceptions they cause, are not modelled; the same holds for Posts.CreatePostWithImages.
- Posts.ToggleLike: the boolean that `Post.toggleLike` returns is not modelled. The entity's code is not part of this model, so its effect is taken to be the membership flip with the count recomputed from the set.
- The image service (`saveImages`, `deleteImages`, `getImagesByEntity`) is not part of this model. Its behaviour is assumed: one appended row per file, removal of every row of the entity, and the URLs of the matching rows.
- `isPostLikedByUser` is a repository query; the model reads it as membership of the viewer in the post's liked set.
- Comments, authors and their nicknames are stored inside the post value; the comment repository is not modelled.
- BookApi.ConvertToContent: a chapter titled `__proto__` would set the object's prototype rather than add a key in JavaScript; the model treats every title as an ordinary key.
- BookApi.CompileBookByAI: the regular-expression cleanup and `JSON.parse` of the response are not modelled; each request's outcome (parsed content, `SyntaxError`, other failure) is an input.
- The shared HTTP client's base URL and headers, URL encoding of query parameters, the multipart form of `updateBook` and the client's own logging are not modelled.
- BookApi.CompileBookByAI: the request it repeats (a POST of the content to `/books/ai-compile`) is not modelled; only the number of requests and their outcomes are.
- TomorrowApi.TransformChallengeDetail: a response body that is not an object (for example `null`, on which the property reads throw) is not modelled.
- JavaScript numbers are modelled as integers; every number these helpers handle is an id or a status code.
- `useAuth.ts` is a React hook (UI state), `challenge.ts` holds only type declarations and constants, `SwaggerConfig.java` is static configuration and `StoryResponseDto.java` is a data holder: none has behaviour to model.

=== FILE: book.dfy ===
/** The book API helpers of frontend/src/lib/api/book.ts.

    Each HTTP call is an input: the helper is given what its request produced, a response
    with a status and a body or a rejection carrying the server's optional message, and
    states the request it issues. */
module BookApi {
  import opened Wrappers
  import opened JsValues
  import opened HttpCalls

  /** A book's content: chapter title to chapter text. */
  type Content = map<string, string>

  datatype Chapter = Chapter(chapterTitle: string, content: string)

  /** A book as the AI compiler returns it. */
  datatype CompiledBook = CompiledBook(title: string, chapters: seq<Chapter>)

  /** The `Error` a helper throws: the server's message, the helper's own fixed message,
      or (in `deleteBookComment`) the caught error wrapped as it is. */
  datatype ApiError = ServerMessage(text: string) | Fallback | Wrapped

  /** `error.response?.data?.message || fallback`: an absent or empty message falls back. */
  function MessageOrFallback(serverMessage: Option<string>): (e: ApiError)
    ensures e.ServerMessage? <==> serverMessage.Some? && serverMessage.value != ""
    ensures e.ServerMessage? ==> e.text == serverMessage.value
    ensures e != Wrapped
  {
    if serverMessage.Some? && serverMessage.value != "" then ServerMessage(serverMessage.value) else Fallback
  }

  /** The titles of the first `n` chapters. */
  function TitlesUpTo(chapters: seq<Chapter>, n: nat): set<string>
    requires n <= |chapters|
  {
    set i | 0 <= i < n :: chapters[i].chapterTitle
  }

  /** Chapter `i` is the last of the first `n` chapters to carry its title. */
  predicate LastOfTitleUpTo(chapters: seq<Chapter>, n: nat, i: int)
    requires 0 <= i < n <= |chapters|
  {
    forall j :: i < j < n ==> chapters[j].chapterTitle != chapters[i].chapterTitle
  }

  /** In `acc`, the title of every chapter among the first `n` that is the last of its title
      maps to that chapter's text. */
  predicate LastWins(chapters: seq<Chapter>, n: nat, acc: Content)
    requires n <= |chapters|
  {
    forall i :: 0 <= i < n && LastOfTitleUpTo(chapters, n, i) && chapters[i].chapterTitle in acc ==>
      acc[chapters[i].chapterTitle] == chapters[i].content
  }

  /** `convertToContent(compiledBook)`: folds the chapters left to right into one object,
      so the key set is exactly the set of titles and a repeated title keeps the text of
      its last chapter. */
  method ConvertToContent(book: CompiledBook) returns (acc: Content)
    ensures acc.Keys == TitlesUpTo(book.chapters, |book.chapters|)
    ensures |book.chapters| == 0 ==> acc == map[]
    ensures forall i :: 0 <= i < |book.chapters| && LastOfTitleUpTo(book.chapters, |book.chapters|, i) ==>
              acc[book.chapters[i].chapterTitle] == book.chapters[i].content
  {
    var chapters := book.chapters;
    acc := map[];
    for n := 0 to |chapters|
      invariant acc.Keys == TitlesUpTo(chapters, n)
      invariant LastWins(chapters, n, acc)
    {
      FoldStep(chapters, n, acc);
      acc := acc[chapters[n].chapterTitle := chapters[n].content];
    }
  }

  /** One step of the fold: adding chapter `n` to the object built from the chapters before it
      gives the object built from the first `n + 1` chapters. */
  lemma FoldStep(chapters: seq<Chapter>, n: nat, acc: Content)
    requires n < |chapters|
    requires acc.Keys == TitlesUpTo(chapters, n)
    requires LastWins(chapters, n, acc)
    ensures var acc' := acc[chapters[n].chapterTitle := chapters[n].content];
      && acc'.Keys == TitlesUpTo(chapters, n + 1)
      && LastWins(chapters, n + 1, acc')
  {
    var c := chapters[n];
    assert TitlesUpTo(chapters, n + 1) == TitlesUpTo(chapters, n) + {c.chapterTitle};
    forall i | 0 <= i < n + 1 && LastOfTitleUpTo(chapters, n + 1, i)
      ensures acc[c.chapterTitle := c.content][chapters[i].chapterTitle] == chapters[i].content
    {
      if i < n {
        assert LastOfTitleUpTo(chapters, n, i);
      }
    }
  }

  /** The minimum query length for which `getAllBooksAutocomplete` asks the server. */
  const MinQueryLength := 2

  /** JavaScript's `s.length`: the number of UTF-16 code units of `s`. A character outside
      the Basic Multilingual Plane takes a surrogate pair, so it counts twice. */
  function Utf16Length(s: string): (n: nat)
    ensures |s| <= n <= 2 * |s|
    ensures n == |s| <==> forall i :: 0 <= i < |s| ==> (s[i] as int) < 0x1_0000
  {
    if |s| == 0 then 0
    else
      var rest := Utf16Length(s[1..]);
      assert forall i :: 1 <= i < |s| ==> s[i] == s[1..][i - 1];
      (if (s[0] as int) < 0x1_0000 then 1 else 2) + rest
  }

  /** The length of a concatenation is the sum of the lengths. */
  lemma {:induction false} Utf16LengthAppend(a: string, b: string)
    ensures Utf16Length(a + b) == Utf16Length(a) + Utf16Length(b)
  {
    if |a| == 0 {
      assert a + b == b;
    } else {
      assert (a + b)[0] == a[0];
      assert (a + b)[1..] == a[1..] + b;
      Utf16LengthAppend(a[1..], b);
    }
  }

  /** One autocomplete suggestion. */
  datatype BookAutoComplete = BookAutoComplete(id: int, title: string)

  /** What a helper did: the request it issued, if any, and what it returns or throws. */
  datatype Exchange<T> = Exchange(request: Option<Request>, result: Result<T, ApiError>)

  /** `getAllBooksAutocomplete(query)`: a query shorter than two characters answers `[]`
      without a request; otherwise it GETs `/books/autocomplete/title` with the query, returns
      the server's list and rethrows a rejection. */
  function GetAllBooksAutocomplete(query: string, response: Outcome<seq<BookAutoComplete>>): (r: Exchange<seq<BookAutoComplete>>)
    ensures r.request.Some? <==> Utf16Length(query) >= MinQueryLength
    ensures r.request.Some? ==>
      r.request.value == Request(GET, [Segment("books"), Segment("autocomplete"), Segment("title")], map["query" := query], None)
    ensures r.request.None? ==> r.result == Ok([])
    ensures r.request.Some? && response.Response? ==> r.result == Ok(response.data)
    ensures r.request.Some? && response.Rejection? ==> r.result == Err(MessageOrFallback(response.serverMessage))
  {
    if Utf16Length(query) < MinQueryLength then Exchange(None, Ok([]))
    else
      var q := Request(GET, [Segment("books"), Segment("autocomplete"), Segment("title")], map["query" := query], None);
      match response
      case Response(_, data) => Exchange(Some(q), Ok(data))
      case Rejection(m) => Exchange(Some(q), Err(MessageOrFallback(m)))
  }

  /** A single character outside the Basic Multilingual Plane already has length two, so it
      is sent to the server; a single character inside it is not. */
  lemma AutocompleteSingleCharacters(response: Outcome<seq<BookAutoComplete>>)
    ensures GetAllBooksAutocomplete("\U{1F600}", response).request.Some?
    ensures GetAllBooksAutocomplete("a", response).request == None
  {
    assert Utf16Length("\U{1F600}") == 2;
    assert Utf16Length("a") == 1;
  }

  /** The statuses that `updateBook` and `deleteBook` report as success. */
  predicate BookWriteAccepted(status: int) {
    status == 200 || status == 204
  }

  /** The statuses that `deleteBookComment` reports as success. */
  predicate CommentDeleteAccepted(status: int) {
    status == 200 || status == 201 || status == 204
  }

  /** The path `/books/{bookId}`. */
  function BookPath(bookId: int): seq<PathPart> {
    [Segment("books"), Param(bookId)]
  }

  /** `updateBook(bookId, ...)`: PUTs the book's form to `/books/{bookId}`; true on 200 or 204,
      false on any other answered status; a rejection is rethrown. */
  function UpdateBook(bookId: int, response: Outcome<()>): (r: Exchange<bool>)
    ensures r.request == Some(Bare(PUT, BookPath(bookId)))
    ensures r.result.Ok? <==> response.Response?
    ensures r.result == Ok(true) <==> response.Response? && response.status in {200, 204}
    ensures response.Rejection? ==> r.result.error == MessageOrFallback(response.serverMessage)
  {
    var q := Bare(PUT, BookPath(bookId));
    match response
    case Response(status, _) => Exchange(Some(q), Ok(BookWriteAccepted(status)))
    case Rejection(m) => Exchange(Some(q), Err(MessageOrFallback(m)))
  }

  /** `deleteBook(bookId)`: DELETEs `/books/{bookId}`; true on 200 or 204, false on any other
      answered status; a rejection is rethrown. */
  function DeleteBook(bookId: int, response: Outcome<()>): (r: Exchange<bool>)
    ensures r.request == Some(Bare(DELETE, BookPath(bookId)))
    ensures r.result.Ok? <==> response.Response?
    ensures r.result == Ok(true) <==> response.Response? && response.status in {200, 204}
    ensures response.Rejection? ==> r.result.error == MessageOrFallback(response.serverMessage)
  {
    var q := Bare(DELETE, BookPath(bookId));
    match response
    case Response(status, _) => Exchange(Some(q), Ok(BookWriteAccepted(status)))
    case Rejection(m) => Exchange(Some(q), Err(MessageOrFallback(m)))
  }

  /** `deleteBookComment(commentId)`: DELETEs `/comments/books/{commentId}`; true on 200, 201 or
      204, false on any other answered status; a rejection is rethrown wrapped, without
      consulting the server's message. */
  function DeleteBookComment(commentId: int, response: Outcome<()>): (r: Exchange<bool>)
    ensures r.request == Some(Bare(DELETE, [Segment("comments"), Segment("books"), Param(commentId)]))
    ensures r.result.Ok? <==> response.Response?
    ensures r.result == Ok(true) <==> response.Response? && response.status in {200, 201, 204}
    ensures r.result.Err? ==> r.result.error == Wrapped
  {
    var q := Bare(DELETE, [Segment("comments"), Segment("books"), Param(commentId)]);
    match response
    case Response(status, _) => Exchange(Some(q), Ok(CommentDeleteAccepted(status)))
    case Rejection(_) => Exchange(Some(q), Err(Wrapped))
  }

  /** The three status checks: `updateBook` and `deleteBook` agree on every response, and
      `deleteBookComment` accepts strictly more statuses (201 as well). */
  lemma StatusChecksCompared(bookId: int, commentId: int, response: Outcome<()>)
    ensures UpdateBook(bookId, response).result.Ok? == DeleteBook(bookId, response).result.Ok?
    ensures UpdateBook(bookId, response).result == Ok(true) <==> DeleteBook(bookId, response).result == Ok(true)
    ensures DeleteBook(bookId, response).result == Ok(true) ==> DeleteBookComment(commentId, response).result == Ok(true)
    ensures response == Response(201, ()) ==>
              DeleteBook(bookId, response).result == Ok(false) && DeleteBookComment(commentId, response).result == Ok(true)
  {
  }

  /** The request body of `createNewBookComment(bookId, content, parentId?)`. */
  function NewBookCommentDto(bookId: int, content: string, parentId: Option<int>): (dto: map<string, Value>)
    ensures "parentId" in dto <==> parentId.Some?
    ensures dto.Keys == {"content", "bookId"} + (if parentId.Some? then {"parentId"} else {})
    ensures dto["content"] == Str(content) && dto["bookId"] == Num(bookId)
    ensures parentId.Some? ==> dto["parentId"] == Num(parentId.value)
  {
    var base := map["content" := Str(content), "bookId" := Num(bookId)];
    if parentId.Some? then base["parentId" := Num(parentId.value)] else base
  }

  /** A comment as the server returns it after creation; only its id is modelled. */
  datatype CreatedComment = CreatedComment(id: int)

  /** `createNewBookComment(bookId, content, parentId?)`: POSTs the body above to
      `/comments/books` and returns the server's comment; any failure becomes the helper's
      own fixed error. */
  function CreateNewBookComment(bookId: int, content: string, parentId: Option<int>,
                                response: Outcome<CreatedComment>): (r: Exchange<CreatedComment>)
    ensures r.request == Some(Request(POST, [Segment("comments"), Segment("books")], map[],
                                      Some(Obj(NewBookCommentDto(bookId, content, parentId)))))
    ensures response.Response? ==> r.result == Ok(response.data)
    ensures response.Rejection? ==> r.result == Err(Fallback)
  {
    var q := Request(POST, [Segment("comments"), Segment("books")], map[], Some(Obj(NewBookCommentDto(bookId, content, parentId))));
    match response
    case Response(_, data) => Exchange(Some(q), Ok(data))
    case Rejection(_) => Exchange(Some(q), Err(Fallback))
  }

  /** The number of requests `compileBookByAI` makes at most. */
  const MaxAttempts := 3

  /** What one compile request came to: the cleaned response parsed, it was no valid JSON
      (a `SyntaxError`), or any other error was thrown, be it a failed request or a resolved
      response without a `response` text to clean. */
  datatype Attempt = Parsed(content: Content) | Unparsable | RequestFailed(serverMessage: Option<string>)

  datatype CompileError = CompileRequestFailed(error: ApiError) | ParseRetriesExhausted

  /** `compileBookByAI(content)`: requests the compilation until one response parses, at most
      three times. A parse failure asks again; any other failure is rethrown at once; three
      parse failures give up. `attempt(k)` is what the request numbered `k` came to. */
  method CompileBookByAI(attempt: nat -> Attempt) returns (requests: nat, r: Result<Content, CompileError>)
    ensures 1 <= requests <= MaxAttempts
    ensures forall k :: 0 <= k < requests - 1 ==> attempt(k) == Unparsable
    ensures r.Ok? <==> attempt(requests - 1).Parsed?
    ensures r.Ok? ==> r.value == attempt(requests - 1).content
    ensures attempt(requests - 1).RequestFailed? ==>
              r == Err(CompileRequestFailed(MessageOrFallback(attempt(requests - 1).serverMessage)))
    ensures r == Err(ParseRetriesExhausted) <==> requests == MaxAttempts && attempt(MaxAttempts - 1) == Unparsable
    ensures attempt(requests - 1) == Unparsable ==> requests == MaxAttempts
    ensures r.Err? && r.error.CompileRequestFailed? ==> attempt(requests - 1).RequestFailed?
    ensures requests < MaxAttempts ==> !attempt(requests - 1).Unparsable?
  {
    requests := 0;
    while requests < MaxAttempts
      invariant 0 <= requests <= MaxAttempts
      invariant forall k :: 0 <= k < requests ==> attempt(k) == Unparsable
    {
      var a := attempt(requests);
      requests := requests + 1;
      match a {
        case Parsed(content) =>
          return requests, Ok(content);
        case RequestFailed(m) =>
          return requests, Err(CompileRequestFailed(MessageOrFallback(m)));
        case Unparsable =>
      }
    }
    r := Err(ParseRetriesExhausted);
  }
}

=== FILE: chat.dfy ===
/** The chat service (backend/.../chat/service/ChatService.java) over an abstract store.

    The two repositories become maps from generated ids to rows; ids are handed out
    in increasing order, so scanning the ids in order lists the rows in insertion order.
    Every operation is a pure transition returning the new store, or the exception the
    service throws. */
module Chat {
  import opened Wrappers

  /** A user's UUID, by its canonical text. */
  type UserId = string
  type RoomId = nat
  type MessageId = nat

  /** A chat room. Members are compared by id only: the model assumes that `User.equals`
      compares ids, which is what the membership test against a placeholder `User` needs. */
  datatype ChatRoom = ChatRoom(name: string, users: seq<UserId>)

  /** A stored message. `sender` is the user name read from the sender entity, `None` for null. */
  datatype ChatMessage = ChatMessage(
    sender: Option<string>,
    receiver: string,
    content: Option<string>,
    fileUrl: Option<string>,
    read: bool,
    roomId: RoomId,
    userId: UserId)

  /** The fields of `ChatMessageResponse` that the model keeps (the timestamp is left out). */
  datatype MessageResponse = MessageResponse(sender: Option<string>, receiver: string, content: Option<string>, read: bool)

  datatype RoomRow = RoomRow(id: RoomId, room: ChatRoom)
  datatype MessageRow = MessageRow(id: MessageId, message: ChatMessage)

  /** Both repositories, with the id each assigns next. */
  datatype ChatStore = ChatStore(
    rooms: map<RoomId, ChatRoom>,
    nextRoomId: RoomId,
    messages: map<MessageId, ChatMessage>,
    nextMessageId: MessageId)

  /** A successful update: the new store and the value the operation returns. */
  datatype Saved<T> = Saved(store: ChatStore, value: T)

  /** The exceptions the service raises. All but the last are `IllegalArgumentException`s;
      the last is the repository's non-unique-result failure of a single-row finder. */
  datatype ChatError =
    | InvalidUserIds
    | RoomNotFound
    | MessageNotFound
    | NotMessageOwner
    | NonUniqueRoomName

  /** Every stored id lies below the next one to be assigned. */
  ghost predicate Valid(s: ChatStore) {
    && (forall id :: id in s.rooms ==> id < s.nextRoomId)
    && (forall id :: id in s.messages ==> id < s.nextMessageId)
  }

  const Empty := ChatStore(map[], 0, map[], 0)

  lemma EmptyValid()
    ensures Valid(Empty)
  {
  }

  /** `createRoom(name, userIds)`: a null or empty id list is rejected and nothing is stored;
      otherwise a room with one member per input id, in input order and duplicates kept, is
      saved under a fresh id. The ids are not checked against the user table. */
  function CreateRoom(s: ChatStore, name: string, userIds: Option<seq<UserId>>): (r: Result<Saved<RoomRow>, ChatError>)
    ensures r.Err? <==> userIds.None? || |userIds.value| == 0
    ensures r.Err? ==> r.error == InvalidUserIds
    ensures r.Ok? ==>
      var row := r.value.value;
      && row.id !in s.rooms
      && row.room.name == name
      && |row.room.users| == |userIds.value|
      && (forall i :: 0 <= i < |userIds.value| ==> row.room.users[i] == userIds.value[i])
      && r.value.store.rooms == s.rooms[row.id := row.room]
      && r.value.store.messages == s.messages
    ensures Valid(s) && r.Ok? ==> Valid(r.value.store)
  {
    if userIds.None? || |userIds.value| == 0 then Err(InvalidUserIds)
    else
      var room := ChatRoom(name, userIds.value);
      var id := FreshKey(s.rooms, s.nextRoomId);
      Ok(Saved(s.(rooms := s.rooms[id := room], nextRoomId := id + 1), RoomRow(id, room)))
  }

  /** `addUserToRoom(roomId, userId)`: fails for an unknown room; adds the user at the end of
      the member list only when not already a member, and otherwise changes nothing. */
  function AddUserToRoom(s: ChatStore, roomId: RoomId, userId: UserId): (r: Result<Saved<ChatRoom>, ChatError>)
    ensures r.Err? <==> roomId !in s.rooms
    ensures r.Err? ==> r.error == RoomNotFound
    ensures r.Ok? ==>
      var before := s.rooms[roomId];
      && userId in r.value.value.users
      && r.value.value.name == before.name
      && (userId in before.users ==> r.value == Saved(s, before))
      && (userId !in before.users ==> r.value.value.users == before.users + [userId])
      && r.value.store == s.(rooms := s.rooms[roomId := r.value.value])
  {
    if roomId !in s.rooms then Err(RoomNotFound)
    else
      var room := s.rooms[roomId];
      if userId in room.users then Ok(Saved(s, room))
      else
        var room' := room.(users := room.users + [userId]);
        Ok(Saved(s.(rooms := s.rooms[roomId := room']), room'))
  }

  /** Adding the same user twice leaves the store and the room as adding it once. */
  lemma AddUserIdempotent(s: ChatStore, roomId: RoomId, userId: UserId)
    requires roomId in s.rooms
    ensures var once := AddUserToRoom(s, roomId, userId).value;
            AddUserToRoom(once.store, roomId, userId).value == once
  {
  }

  /** Whether a list holds no id twice. */
  predicate NoDuplicates(users: seq<UserId>) {
    forall i, j :: 0 <= i < j < |users| ==> users[i] != users[j]
  }

  /** `addUserToRoom` never introduces a duplicate member (a room created with duplicates keeps them). */
  lemma AddUserKeepsNoDuplicates(s: ChatStore, roomId: RoomId, userId: UserId)
    requires roomId in s.rooms && NoDuplicates(s.rooms[roomId].users)
    ensures NoDuplicates(AddUserToRoom(s, roomId, userId).value.value.users)
  {
    var users := s.rooms[roomId].users;
    if userId !in users {
      var users' := users + [userId];
      forall i, j | 0 <= i < j < |users'| ensures users'[i] != users'[j] {
        if j == |users| {
          assert users'[i] == users[i];
        }
      }
    }
  }

  /** `saveMessage(roomId, userId, receiver, content)`: fails for an unknown room; otherwise
      stores an unread text message linked to the room and the user, and returns a response
      mirroring the stored fields. The sender name is read from a placeholder user that carries
      only the id, so it is always null. */
  function SaveMessage(s: ChatStore, roomId: RoomId, userId: UserId, receiver: string, content: string)
    : (r: Result<Saved<MessageResponse>, ChatError>)
    ensures r.Err? <==> roomId !in s.rooms
    ensures r.Err? ==> r.error == RoomNotFound
    ensures r.Ok? ==>
      var s' := r.value.store;
      exists id :: id !in s.messages && id in s'.messages &&
        var m := s'.messages[id];
        && m.receiver == receiver && m.content == Some(content) && m.fileUrl.None? && !m.read
        && m.roomId == roomId && m.userId == userId && m.sender.None?
        && s'.messages == s.messages[id := m]
        && r.value.value == MessageResponse(m.sender, m.receiver, m.content, m.read)
    ensures r.Ok? ==> r.value.store.rooms == s.rooms
    ensures Valid(s) && r.Ok? ==> Valid(r.value.store)
  {
    if roomId !in s.rooms then Err(RoomNotFound)
    else
      var m := ChatMessage(None, receiver, Some(content), None, false, roomId, userId);
      var id := FreshKey(s.messages, s.nextMessageId);
      var s' := s.(messages := s.messages[id := m], nextMessageId := id + 1);
      assert id in s'.messages;
      Ok(Saved(s', MessageResponse(m.sender, m.receiver, m.content, m.read)))
  }

  /** `deleteMessage(messageId, userId)`: fails for an unknown message and for a requester
      who does not own it (the message stays); otherwise removes exactly that message. */
  function DeleteMessage(s: ChatStore, messageId: MessageId, userId: UserId): (r: Result<ChatStore, ChatError>)
    ensures messageId !in s.messages ==> r == Err(MessageNotFound)
    ensures messageId in s.messages && s.messages[messageId].userId != userId ==> r == Err(NotMessageOwner)
    ensures r.Ok? <==> messageId in s.messages && s.messages[messageId].userId == userId
    ensures r.Ok? ==>
      && r.value.messages.Keys == s.messages.Keys - {messageId}
      && (forall id :: id in r.value.messages ==> r.value.messages[id] == s.messages[id])
      && r.value.rooms == s.rooms
    ensures Valid(s) && r.Ok? ==> Valid(r.value)
  {
    if messageId !in s.messages then Err(MessageNotFound)
    else if s.messages[messageId].userId != userId then Err(NotMessageOwner)
    else Ok(s.(messages := s.messages - {messageId}))
  }

  /** `markMessageAsRead(messageId)`: fails for an unknown message; otherwise sets its read
      flag and changes nothing else. */
  function MarkMessageAsRead(s: ChatStore, messageId: MessageId): (r: Result<ChatStore, ChatError>)
    ensures r.Err? <==> messageId !in s.messages
    ensures r.Err? ==> r.error == MessageNotFound
    ensures r.Ok? ==>
      && r.value.messages.Keys == s.messages.Keys
      && r.value.messages[messageId].read
      && r.value.messages[messageId] == s.messages[messageId].(read := true)
      && (forall id :: id in s.messages && id != messageId ==> r.value.messages[id] == s.messages[id])
      && r.value.rooms == s.rooms
    ensures Valid(s) && r.Ok? ==> Valid(r.value)
  {
    if messageId !in s.messages then Err(MessageNotFound)
    else Ok(s.(messages := s.messages[messageId := s.messages[messageId].(read := true)]))
  }

  /** Marking a message read twice is marking it once. */
  lemma MarkMessageAsReadIdempotent(s: ChatStore, messageId: MessageId)
    requires messageId in s.messages
    ensures MarkMessageAsRead(MarkMessageAsRead(s, messageId).value, messageId) == MarkMessageAsRead(s, messageId)
  {
    var once := MarkMessageAsRead(s, messageId).value;
    assert once.messages[messageId := once.messages[messageId].(read := true)] == once.messages;
  }

  /** Whether `keyword` occurs in `text` (Java's `contains`, and SQL `LIKE %keyword%`). */
  predicate Contains(text: string, keyword: string) {
    exists i :: 0 <= i <= |text| - |keyword| && OccursAt(text, keyword, i)
  }

  /** Whether `keyword` occurs in `text` starting at index `i`. */
  predicate OccursAt(text: string, keyword: string, i: int)
    requires 0 <= i <= |text| - |keyword|
  {
    text[i..i + |keyword|] == keyword
  }

  /** The two message queries. */
  datatype MessageQuery = InRoom(roomId: RoomId) | InRoomContaining(roomId: RoomId, keyword: string)

  /** Whether a message answers a query. A file message has no content, so no keyword matches it. */
  predicate Selects(q: MessageQuery, m: ChatMessage) {
    match q
    case InRoom(roomId) => m.roomId == roomId
    case InRoomContaining(roomId, keyword) =>
      m.roomId == roomId && m.content.Some? && Contains(m.content.value, keyword)
  }

  /** The messages with ids in `[lo, hi)` that answer `q`, in id order. */
  function Select(msgs: map<MessageId, ChatMessage>, q: MessageQuery, lo: nat, hi: nat): (r: seq<MessageRow>)
    requires lo <= hi
    ensures forall x :: x in r <==> lo <= x.id < hi && x.id in msgs && msgs[x.id] == x.message && Selects(q, x.message)
    ensures forall i, j :: 0 <= i < j < |r| ==> r[i].id < r[j].id
    decreases hi - lo
  {
    if lo == hi then []
    else
      var rest := Select(msgs, q, lo + 1, hi);
      if lo in msgs && Selects(q, msgs[lo]) then
        assert forall j :: 0 <= j < |rest| ==> rest[j] in rest;
        [MessageRow(lo, msgs[lo])] + rest
      else rest
  }

  /** `getMessages(roomId)`: the room's messages, each once, in id order. */
  function GetMessages(s: ChatStore, roomId: RoomId): (r: seq<MessageRow>)
    ensures forall x :: x in r ==> x.id in s.messages && s.messages[x.id] == x.message && x.message.roomId == roomId
    ensures Valid(s) ==> forall id :: id in s.messages && s.messages[id].roomId == roomId ==> MessageRow(id, s.messages[id]) in r
    ensures forall i, j :: 0 <= i < j < |r| ==> r[i].id < r[j].id
  {
    Select(s.messages, InRoom(roomId), 0, s.nextMessageId)
  }

  /** `searchMessages(roomId, keyword)`: the room's text messages whose content contains the keyword, in id order. */
  function SearchMessages(s: ChatStore, roomId: RoomId, keyword: string): (r: seq<MessageRow>)
    ensures forall x :: x in r ==> x.id in s.messages && s.messages[x.id] == x.message && x.message.roomId == roomId
                                   && x.message.content.Some? && Contains(x.message.content.value, keyword)
    ensures Valid(s) ==> forall id ::
      (id in s.messages && s.messages[id].roomId == roomId
       && s.messages[id].content.Some? && Contains(s.messages[id].content.value, keyword))
      ==> MessageRow(id, s.messages[id]) in r
    ensures forall i, j :: 0 <= i < j < |r| ==> r[i].id < r[j].id
  {
    Select(s.messages, InRoomContaining(roomId, keyword), 0, s.nextMessageId)
  }

  /** Every search hit is also listed by `getMessages` for the same room. */
  lemma SearchWithinRoom(s: ChatStore, roomId: RoomId, keyword: string)
    requires Valid(s)
    ensures forall x :: x in SearchMessages(s, roomId, keyword) ==> x in GetMessages(s, roomId)
  {
  }

  /** After its owner deletes a message, the room's listing no longer contains it. */
  lemma DeletedMessageNotListed(s: ChatStore, messageId: MessageId, userId: UserId)
    requires messageId in s.messages && s.messages[messageId].userId == userId
    ensures var s' := DeleteMessage(s, messageId, userId).value;
            forall x :: x in GetMessages(s', s.messages[messageId].roomId) ==> x.id != messageId
  {
  }

  /** The rooms with ids in `[lo, hi)` named `name`, in id order. */
  function RoomsNamed(rooms: map<RoomId, ChatRoom>, name: string, lo: nat, hi: nat): (r: seq<RoomRow>)
    requires lo <= hi
    ensures forall x :: x in r <==> lo <= x.id < hi && x.id in rooms && rooms[x.id] == x.room && x.room.name == name
    ensures forall i, j :: 0 <= i < j < |r| ==> r[i].id < r[j].id
    decreases hi - lo
  {
    if lo == hi then []
    else
      var rest := RoomsNamed(rooms, name, lo + 1, hi);
      if lo in rooms && rooms[lo].name == name then
        assert forall j :: 0 <= j < |rest| ==> rest[j] in rest;
        [RoomRow(lo, rooms[lo])] + rest
      else rest
  }

  /** `findRoomByName(name)`: null when no room has the name, the room when exactly one has it;
      the single-row finder fails when several rooms share the name. */
  function FindRoomByName(s: ChatStore, name: string): (r: Result<Option<RoomRow>, ChatError>)
    ensures r == Ok(None) ==> Valid(s) ==> forall id :: id in s.rooms ==> s.rooms[id].name != name
    ensures r.Ok? && r.value.Some? ==>
      var row := r.value.value;
      && row.id in s.rooms && s.rooms[row.id] == row.room && row.room.name == name
      && (Valid(s) ==> forall id :: id in s.rooms && s.rooms[id].name == name ==> id == row.id)
    ensures r.Err? ==>
      && r.error == NonUniqueRoomName
      && exists a, b :: a in s.rooms && b in s.rooms && a != b && s.rooms[a].name == name && s.rooms[b].name == name
    ensures Valid(s) ==> ((exists id :: id in s.rooms && s.rooms[id].name == name) <==> r != Ok(None))
  {
    var hits := RoomsNamed(s.rooms, name, 0, s.nextRoomId);
    if |hits| == 0 then
      assert Valid(s) ==> forall id :: id in s.rooms && s.rooms[id].name == name ==> RoomRow(id, s.rooms[id]) in hits;
      Ok(None)
    else if |hits| == 1 then
      assert hits[0] in hits;
      assert forall x :: x in hits ==> x == hits[0];
      assert Valid(s) ==> forall id :: id in s.rooms && s.rooms[id].name == name ==> RoomRow(id, s.rooms[id]) in hits;
      Ok(Some(hits[0]))
    else
      assert hits[0] in hits && hits[1] in hits;
      assert hits[0].id < hits[1].id;
      Err(NonUniqueRoomName)
  }
}

=== FILE: http.dfy ===
/** The HTTP exchanges of the client API helpers: the request a helper issues and what
    awaiting it produced. The shared client's base URL and headers are not modelled. */
module HttpCalls {
  import opened Wrappers
  import opened JsValues

  datatype Verb = GET | POST | PUT | DELETE

  /** One segment of a request path: a fixed name, or an id interpolated into the URL. */
  datatype PathPart = Segment(name: string) | Param(id: int)

  /** A request: verb, path below the base URL, query parameters (before URL encoding) and
      JSON body; a multipart form body is not modelled and reads as `None`. */
  datatype Request = Request(verb: Verb, path: seq<PathPart>, query: map<string, string>, body: Option<Value>)

  /** A request without query parameters or body. */
  function Bare(verb: Verb, path: seq<PathPart>): (q: Request)
    ensures q.verb == verb && q.path == path && q.query == map[] && q.body == None
  {
    Request(verb, path, map[], None)
  }

  /** What awaiting a request produced: a response with its status and body, or a rejection
      (a network failure or an error status) carrying `error.response?.data?.message`. */
  datatype Outcome<T> = Response(status: int, data: T) | Rejection(serverMessage: Option<string>)
}

=== FILE: images.dfy ===
/** The generic image table: image records keyed by (image type, owning entity id).

    `FindImagesByTypeAndEntityId` models the repository query of
    backend/.../image/repository/ImageRepositoryImpl.java. The image service that saves,
    deletes and lists images for the post service is not part of this model; its three
    operations are given here the behaviour the post service relies on: append one record
    per uploaded file, remove every record of an entity, and list the records' URLs. */
module Images {
  import opened Wrappers

  /** A constant of the `ImageType` enum, identified by its name. */
  datatype ImageType = ImageType(name: string)

  /** The constant the post service files its images under. */
  const POST := ImageType("POST")

  /** One row of the image table. */
  datatype Image = Image(id: nat, imageType: ImageType, entityId: int, url: string)

  /** The table in insertion order, with the id the next saved row receives. */
  datatype ImageTable = ImageTable(rows: seq<Image>, nextId: nat)

  /** `ImageType.valueOf` throws `IllegalArgumentException` for a name that is no constant. */
  datatype LookupError = NoSuchImageType(name: string)

  /** Whether a row belongs to entity `entityId` under type `t`. */
  predicate Belongs(x: Image, t: ImageType, entityId: int) {
    x.imageType == t && x.entityId == entityId
  }

  /** `ImageType.valueOf(name)`, given the names of the enum's declared constants. */
  function ValueOf(declared: set<string>, name: string): (r: Result<ImageType, LookupError>)
    ensures r.Ok? <==> name in declared
    ensures r.Ok? ==> r.value.name == name
    ensures r.Err? ==> r.error == NoSuchImageType(name)
  {
    if name in declared then Ok(ImageType(name)) else Err(NoSuchImageType(name))
  }

  /** The rows of entity `entityId` under type `t`, in table order. */
  function Matching(rows: seq<Image>, t: ImageType, entityId: int): (r: seq<Image>)
    ensures forall x :: x in r <==> x in rows && Belongs(x, t, entityId)
    ensures |r| <= |rows|
  {
    if |rows| == 0 then []
    else
      assert rows == [rows[0]] + rows[1..];
      var rest := Matching(rows[1..], t, entityId);
      if Belongs(rows[0], t, entityId) then [rows[0]] + rest else rest
  }

  /** `findImagesByTypeAndEntityId(imageType, entityId)`: resolves the type name, then returns
      every row of that type and entity, and only those. The table is only read. */
  function FindImagesByTypeAndEntityId(table: ImageTable, declared: set<string>, imageType: string, entityId: int)
    : (r: Result<seq<Image>, LookupError>)
    ensures r.Err? <==> imageType !in declared
    ensures r.Ok? ==> forall x :: x in r.value ==> x.imageType.name == imageType
    ensures r.Ok? ==> forall x :: x in r.value ==> x.entityId == entityId
    ensures r.Ok? ==> forall x :: x in r.value ==> x in table.rows
    ensures r.Ok? ==> forall x :: x in table.rows && x.imageType.name == imageType && x.entityId == entityId
                                  ==> multiset(r.value)[x] == multiset(table.rows)[x]
  {
    match ValueOf(declared, imageType)
    case Err(e) => Err(e)
    case Ok(t) =>
      MatchingCount(table.rows, t, entityId);
      Ok(Matching(table.rows, t, entityId))
  }

  /** The filter keeps every matching row as often as the table holds it, and nothing else. */
  lemma {:induction false} MatchingCount(rows: seq<Image>, t: ImageType, entityId: int)
    ensures forall x :: multiset(Matching(rows, t, entityId))[x] == if Belongs(x, t, entityId) then multiset(rows)[x] else 0
  {
    if |rows| > 0 {
      assert rows == [rows[0]] + rows[1..];
      MatchingCount(rows[1..], t, entityId);
    }
  }

  /** Filtering distributes over concatenation. */
  lemma {:induction false} MatchingAppend(a: seq<Image>, b: seq<Image>, t: ImageType, entityId: int)
    ensures Matching(a + b, t, entityId) == Matching(a, t, entityId) + Matching(b, t, entityId)
  {
    if |a| == 0 {
      assert a + b == b;
    } else {
      var ab := a + b;
      assert ab[0] == a[0];
      assert ab[1..] == a[1..] + b;
      MatchingAppend(a[1..], b, t, entityId);
      assert Matching(ab, t, entityId) == (if Belongs(a[0], t, entityId) then [a[0]] else []) + Matching(ab[1..], t, entityId);
    }
  }

  /** The rows uploaded for one entity, one per file URL, with consecutive fresh ids. */
  function NewRows(firstId: nat, urls: seq<string>, t: ImageType, entityId: int): (r: seq<Image>)
    ensures |r| == |urls|
    ensures forall i :: 0 <= i < |r| ==> r[i] == Image(firstId + i, t, entityId, urls[i])
  {
    seq(|urls|, i requires 0 <= i < |urls| => Image(firstId + i, t, entityId, urls[i]))
  }

  /** The image service's `saveImages(files, t, entityId)`: appends one row per uploaded file. */
  function SaveImages(table: ImageTable, urls: seq<string>, t: ImageType, entityId: int): (r: ImageTable)
    ensures r.rows == table.rows + NewRows(table.nextId, urls, t, entityId)
    ensures r.nextId == table.nextId + |urls|
  {
    ImageTable(table.rows + NewRows(table.nextId, urls, t, entityId), table.nextId + |urls|)
  }

  /** The rows left after removing every row of entity `entityId` under type `t`, in order. */
  function WithoutEntity(rows: seq<Image>, t: ImageType, entityId: int): (r: seq<Image>)
    ensures forall x :: x in r <==> x in rows && !Belongs(x, t, entityId)
    ensures |r| <= |rows|
  {
    if |rows| == 0 then []
    else
      assert rows == [rows[0]] + rows[1..];
      var rest := WithoutEntity(rows[1..], t, entityId);
      if Belongs(rows[0], t, entityId) then rest else [rows[0]] + rest
  }

  /** The image service's `deleteImages(t, entityId)`: every row of the entity goes. */
  function DeleteImages(table: ImageTable, t: ImageType, entityId: int): (r: ImageTable)
    ensures Matching(r.rows, t, entityId) == []
    ensures forall x :: x in r.rows <==> x in table.rows && !Belongs(x, t, entityId)
    ensures r.nextId == table.nextId
  {
    var rows := WithoutEntity(table.rows, t, entityId);
    assert forall i :: 0 <= i < |rows| ==> rows[i] in rows;
    MatchingNone(rows, t, entityId);
    ImageTable(rows, table.nextId)
  }

  /** The image service's `getImagesByEntity(t, entityId)`: the URLs of the entity's rows, in table order. */
  function ImageUrls(table: ImageTable, t: ImageType, entityId: int): (r: seq<string>)
    ensures |r| == |Matching(table.rows, t, entityId)|
    ensures forall i :: 0 <= i < |r| ==> r[i] == Matching(table.rows, t, entityId)[i].url
  {
    var m := Matching(table.rows, t, entityId);
    seq(|m|, i requires 0 <= i < |m| => m[i].url)
  }

  /** Rows that all belong to the entity are all found. */
  lemma {:induction false} MatchingAll(rows: seq<Image>, t: ImageType, entityId: int)
    requires forall i :: 0 <= i < |rows| ==> Belongs(rows[i], t, entityId)
    ensures Matching(rows, t, entityId) == rows
  {
    if |rows| > 0 {
      MatchingAll(rows[1..], t, entityId);
    }
  }

  /** Rows none of which belong to the entity yield nothing. */
  lemma {:induction false} MatchingNone(rows: seq<Image>, t: ImageType, entityId: int)
    requires forall i :: 0 <= i < |rows| ==> !Belongs(rows[i], t, entityId)
    ensures Matching(rows, t, entityId) == []
  {
    if |rows| > 0 {
      MatchingNone(rows[1..], t, entityId);
    }
  }

  /** After a delete followed by a save for the same entity, the entity's images are exactly the new ones. */
  lemma DeleteThenSave(table: ImageTable, urls: seq<string>, t: ImageType, entityId: int)
    ensures var r := SaveImages(DeleteImages(table, t, entityId), urls, t, entityId);
      Matching(r.rows, t, entityId) == NewRows(table.nextId, urls, t, entityId)
  {
    var d := DeleteImages(table, t, entityId);
    MatchingAppend(d.rows, NewRows(d.nextId, urls, t, entityId), t, entityId);
    MatchingAll(NewRows(d.nextId, urls, t, entityId), t, entityId);
  }

  /** Saving images for one entity does not change what any other entity's lookup returns. */
  lemma SaveKeepsOtherEntities(table: ImageTable, urls: seq<string>, t: ImageType, entityId: int,
                               t': ImageType, other: int)
    requires t' != t || other != entityId
    ensures Matching(SaveImages(table, urls, t, entityId).rows, t', other) == Matching(table.rows, t', other)
  {
    var added := NewRows(table.nextId, urls, t, entityId);
    MatchingAppend(table.rows, added, t', other);
    MatchingNone(added, t', other);
    assert table.rows + added == SaveImages(table, urls, t, entityId).rows;
    assert Matching(table.rows, t', other) + [] == Matching(table.rows, t', other);
  }
}

=== FILE: jsvalues.dfy ===
/** JavaScript values as the frontend API helpers build and read them. */
module JsValues {

  /** A JavaScript value. Numbers are modelled by integers: every number these helpers
      handle is an id. */
  datatype Value =
    | Undefined
    | Null
    | Bool(b: bool)
    | Num(n: int)
    | Str(s: string)
    | Arr(items: seq<Value>)
    | Obj(fields: map<string, Value>)

  /** Property access `o[key]` on a plain object: a missing property reads as `undefined`. */
  function Get(o: map<string, Value>, key: string): (v: Value)
    ensures key in o ==> v == o[key]
    ensures key !in o ==> v == Undefined
  {
    if key in o then o[key] else Undefined
  }
}

=== FILE: posts.dfy ===
/** The post service (backend/.../post/service/PostService.java) over an abstract store of
    users, posts and the generic image table.

    Repositories become maps from generated ids to rows. The list queries delegate their
    filtering and ordering to repository queries; those are inputs here (the rows the
    repository returned), and the model states how the service projects them. */
module Posts {
  import opened Wrappers
  import opened Images

  /** A user's UUID, by its canonical text. */
  type UserId = string
  type PostId = nat
  type CommentId = nat

  datatype User = User(id: UserId, nickname: string)

  /** A comment on a post; `parentId` is the id of the comment it replies to, if any. */
  datatype Comment = Comment(id: CommentId, content: string, author: User, parentId: Option<CommentId>)

  /** A stored post. `likes` is a cached count; the set of users who liked the post is the source of truth. */
  datatype Post = Post(
    title: string,
    content: string,
    category: string,
    likes: int,
    owner: User,
    likedUsers: set<UserId>,
    comments: seq<Comment>)

  /** The stores. The user table maps each user's id to the nickname. */
  datatype PostStore = PostStore(
    users: map<UserId, string>,
    posts: map<PostId, Post>,
    nextPostId: PostId,
    images: ImageTable)

  /** `PostRequestDto`. */
  datatype PostRequest = PostRequest(title: string, content: string, category: string)

  /** `PostUpdateRequestDto`; `deleteImageIds` is `None` for a null list. */
  datatype PostUpdateRequest = PostUpdateRequest(
    title: string, content: string, category: string, deleteImageIds: Option<seq<nat>>)

  /** The uploaded files, `None` for a null list; each file is the URL the image service stores for it. */
  type Files = Option<seq<string>>

  /** The exceptions the service raises: a `RuntimeException` for an unknown user, an
      `IllegalArgumentException` for an unknown post or a requester who is not the owner. */
  datatype PostError = UserNotFound | PostNotFound | NotPostOwner

  /** A successful update: the new store and the value the operation returns. */
  datatype Updated<T> = Updated(store: PostStore, value: T)

  /** A post as a repository query returns it: its id and its row. */
  datatype PostRow = PostRow(id: PostId, post: Post)

  /** `CommentDto`. */
  datatype CommentDto = CommentDto(id: CommentId, content: string, userId: UserId, userNickname: string, parentId: Option<CommentId>)

  /** `PostResponseDto` without the timestamps. */
  datatype PostResponse = PostResponse(
    id: PostId,
    title: string,
    content: string,
    category: string,
    userId: UserId,
    userNickname: string,
    likes: int,
    isLiked: bool,
    images: seq<string>,
    commentCount: int,
    comments: seq<CommentDto>)

  /** What every reachable store satisfies: post ids lie below the counter, and every POST image
      belongs to a stored post (images are saved after their post and deleted with it). */
  ghost predicate Valid(s: PostStore) {
    && (forall id :: id in s.posts ==> id < s.nextPostId)
    && (forall x :: x in s.images.rows && x.imageType == POST ==> x.entityId in s.posts)
  }

  /** Whether a non-null, non-empty file list was uploaded. */
  predicate HasFiles(files: Files) {
    files.Some? && |files.value| > 0
  }

  /** The authorization rule shared by update and delete: the requester owns the post. */
  predicate IsOwner(p: Post, userId: UserId) {
    p.owner.id == userId
  }

  /** `getUserById`: the stored user, or `UserNotFound`. */
  function GetUserById(s: PostStore, userId: UserId): (r: Result<User, PostError>)
    ensures r.Ok? <==> userId in s.users
    ensures r.Ok? ==> r.value.id == userId && r.value.nickname == s.users[userId]
    ensures r.Err? ==> r.error == UserNotFound
  {
    if userId in s.users then Ok(User(userId, s.users[userId])) else Err(UserNotFound)
  }

  /** The image table after an optional upload for post `id`. */
  function MaybeSaveImages(images: ImageTable, files: Files, id: PostId): (r: ImageTable)
    ensures HasFiles(files) ==> r == SaveImages(images, files.value, POST, id)
    ensures !HasFiles(files) ==> r == images
  {
    if HasFiles(files) then SaveImages(images, files.value, POST, id) else images
  }

  /** `createPostWithImages(requestDto, imageFiles, userId)`: fails for an unknown user;
      otherwise stores a post with the request's fields, no likes, and the user as owner,
      then saves the uploaded images (only when the list is non-null and non-empty). */
  function CreatePostWithImages(s: PostStore, req: PostRequest, files: Files, userId: UserId)
    : (r: Result<Updated<PostId>, PostError>)
    ensures r.Err? <==> userId !in s.users
    ensures r.Err? ==> r.error == UserNotFound
    ensures r.Ok? ==>
      var id := r.value.value;
      var s' := r.value.store;
      && id !in s.posts
      && s'.posts.Keys == s.posts.Keys + {id}
      && (forall k :: k in s.posts ==> s'.posts[k] == s.posts[k])
      && s'.posts[id].title == req.title
      && s'.posts[id].content == req.content
      && s'.posts[id].category == req.category
      && s'.posts[id].likes == 0
      && s'.posts[id].owner == User(userId, s.users[userId])
      && s'.posts[id].likedUsers == {}
      && s'.posts[id].comments == []
      && s'.users == s.users
      && (HasFiles(files) ==> s'.images == SaveImages(s.images, files.value, POST, id))
      && (!HasFiles(files) ==> s'.images == s.images)
    ensures r.Ok? && Valid(s) ==> Valid(r.value.store)
  {
    match GetUserById(s, userId)
    case Err(e) => Err(e)
    case Ok(user) =>
      var id := FreshKey(s.posts, s.nextPostId);
      var post := Post(req.title, req.content, req.category, 0, user, {}, []);
      var s' := s.(posts := s.posts[id := post], nextPostId := id + 1);
      Ok(Updated(s'.(images := MaybeSaveImages(s.images, files, id)), id))
  }

  /** The image table after an update's deletion step: ALL of the post's POST images go as soon
      as the request lists any id to delete, whichever ids it lists. */
  function UpdateDeletion(images: ImageTable, deleteImageIds: Option<seq<nat>>, id: PostId): (r: ImageTable)
    ensures deleteImageIds.Some? && |deleteImageIds.value| > 0 ==> r == DeleteImages(images, POST, id)
    ensures deleteImageIds.None? || |deleteImageIds.value| == 0 ==> r == images
  {
    if deleteImageIds.Some? && |deleteImageIds.value| > 0 then DeleteImages(images, POST, id) else images
  }

  /** `updatePost(postId, requestDto, imageFiles, userId)`: the post is looked up first, then the
      user, then ownership is checked. On success title, content and category take the request's
      values, the images are replaced as described above, and the returned flag says whether
      the explicit `save` was issued: exactly when one of the three fields changed. */
  function UpdatePost(s: PostStore, postId: PostId, req: PostUpdateRequest, files: Files, userId: UserId)
    : (r: Result<Updated<bool>, PostError>)
    ensures postId !in s.posts ==> r == Err(PostNotFound)
    ensures postId in s.posts && userId !in s.users ==> r == Err(UserNotFound)
    ensures postId in s.posts && userId in s.users && !IsOwner(s.posts[postId], userId) ==> r == Err(NotPostOwner)
    ensures r.Ok? <==> postId in s.posts && userId in s.users && IsOwner(s.posts[postId], userId)
    ensures r.Ok? ==>
      var p := s.posts[postId];
      var s' := r.value.store;
      && s'.posts.Keys == s.posts.Keys
      && s'.posts[postId].title == req.title
      && s'.posts[postId].content == req.content
      && s'.posts[postId].category == req.category
      && s'.posts[postId] == p.(title := req.title, content := req.content, category := req.category)
      && (forall k :: k in s.posts && k != postId ==> s'.posts[k] == s.posts[k])
      && (r.value.value <==> p.title != req.title || p.content != req.content || p.category != req.category)
      && s'.images == MaybeSaveImages(UpdateDeletion(s.images, req.deleteImageIds, postId), files, postId)
      && s'.users == s.users
    ensures r.Ok? && Valid(s) ==> Valid(r.value.store)
  {
    if postId !in s.posts then Err(PostNotFound)
    else match GetUserById(s, userId)
      case Err(e) => Err(e)
      case Ok(user) =>
        var p := s.posts[postId];
        if !IsOwner(p, user.id) then Err(NotPostOwner)
        else
          var changed := p.title != req.title || p.content != req.content || p.category != req.category;
          var p' := p.(title := req.title, content := req.content, category := req.category);
          var images' := MaybeSaveImages(UpdateDeletion(s.images, req.deleteImageIds, postId), files, postId);
          Ok(Updated(s.(posts := s.posts[postId := p'], images := images'), changed))
  }

  /** A non-empty deletion list removes every existing image of the post, not only the listed ones:
      afterwards the post's images are exactly the ones uploaded with the update. */
  lemma UpdateReplacesAllImages(s: PostStore, postId: PostId, req: PostUpdateRequest, files: Files, userId: UserId)
    requires UpdatePost(s, postId, req, files, userId).Ok?
    requires req.deleteImageIds.Some? && |req.deleteImageIds.value| > 0
    ensures var s' := UpdatePost(s, postId, req, files, userId).value.store;
      Matching(s'.images.rows, POST, postId)
        == if HasFiles(files) then NewRows(s.images.nextId, files.value, POST, postId) else []
  {
    if HasFiles(files) {
      DeleteThenSave(s.images, files.value, POST, postId);
    }
  }

  /** Without a deletion list the post keeps its images, and new uploads come after them. */
  lemma UpdateKeepsImagesWithoutDeletion(s: PostStore, postId: PostId, req: PostUpdateRequest, files: Files, userId: UserId)
    requires UpdatePost(s, postId, req, files, userId).Ok?
    requires req.deleteImageIds.None? || |req.deleteImageIds.value| == 0
    ensures var s' := UpdatePost(s, postId, req, files, userId).value.store;
      Matching(s'.images.rows, POST, postId)
        == Matching(s.images.rows, POST, postId)
           + if HasFiles(files) then NewRows(s.images.nextId, files.value, POST, postId) else []
  {
    var images' := UpdatePost(s, postId, req, files, userId).value.store.images;
    assert UpdateDeletion(s.images, req.deleteImageIds, postId) == s.images;
    if HasFiles(files) {
      var added := NewRows(s.images.nextId, files.value, POST, postId);
      assert images'.rows == s.images.rows + added;
      MatchingAppend(s.images.rows, added, POST, postId);
      MatchingAll(added, POST, postId);
    } else {
      assert images' == s.images;
    }
  }

  /** `deletePost(postId, userId)`: the same not-found and ownership checks as an update; on
      success the post's images and then the post itself are removed. */
  function DeletePost(s: PostStore, postId: PostId, userId: UserId): (r: Result<PostStore, PostError>)
    ensures postId !in s.posts ==> r == Err(PostNotFound)
    ensures postId in s.posts && userId !in s.users ==> r == Err(UserNotFound)
    ensures postId in s.posts && userId in s.users && !IsOwner(s.posts[postId], userId) ==> r == Err(NotPostOwner)
    ensures r.Ok? <==> postId in s.posts && userId in s.users && IsOwner(s.posts[postId], userId)
    ensures r.Ok? ==>
      && r.value.posts.Keys == s.posts.Keys - {postId}
      && (forall k :: k in r.value.posts ==> r.value.posts[k] == s.posts[k])
      && Matching(r.value.images.rows, POST, postId) == []
      && (forall x :: x in r.value.images.rows <==> x in s.images.rows && !Belongs(x, POST, postId))
      && r.value.users == s.users
      && r.value.nextPostId == s.nextPostId && r.value.images.nextId == s.images.nextId
    ensures r.Ok? && Valid(s) ==> Valid(r.value)
  {
    if postId !in s.posts then Err(PostNotFound)
    else match GetUserById(s, userId)
      case Err(e) => Err(e)
      case Ok(user) =>
        if !IsOwner(s.posts[postId], user.id) then Err(NotPostOwner)
        else Ok(s.(images := DeleteImages(s.images, POST, postId), posts := s.posts - {postId}))
  }

  /** `toggleLike(postId, userId)`: fails for an unknown post; otherwise flips the user's
      membership in the post's liked set and recomputes the count from the set. */
  function ToggleLike(s: PostStore, postId: PostId, userId: UserId): (r: Result<PostStore, PostError>)
    ensures r.Err? <==> postId !in s.posts
    ensures r.Err? ==> r.error == PostNotFound
    ensures r.Ok? ==> r.value.posts.Keys == s.posts.Keys
    ensures r.Ok? ==>
      var p := s.posts[postId];
      var p' := r.value.posts[postId];
      && (userId in p'.likedUsers <==> userId !in p.likedUsers)
      && (forall u :: u != userId ==> (u in p'.likedUsers <==> u in p.likedUsers))
      && p'.likes == |p'.likedUsers|
      && p' == p.(likedUsers := p'.likedUsers, likes := p'.likes)
      && (forall k :: k in s.posts && k != postId ==> r.value.posts[k] == s.posts[k])
      && r.value.users == s.users && r.value.images == s.images
    ensures r.Ok? && Valid(s) ==> Valid(r.value)
  {
    if postId !in s.posts then Err(PostNotFound)
    else
      var p := s.posts[postId];
      var liked' := if userId in p.likedUsers then p.likedUsers - {userId} else p.likedUsers + {userId};
      Ok(s.(posts := s.posts[postId := p.(likedUsers := liked', likes := |liked'|)]))
  }

  /** Toggling twice restores the liked set, and restores the count whenever it agreed with the set. */
  lemma ToggleLikeTwice(s: PostStore, postId: PostId, userId: UserId)
    requires postId in s.posts
    ensures var twice := ToggleLike(ToggleLike(s, postId, userId).value, postId, userId).value;
      && twice.posts[postId].likedUsers == s.posts[postId].likedUsers
      && twice.posts[postId].likes == |s.posts[postId].likedUsers|
      && (s.posts[postId].likes == |s.posts[postId].likedUsers| ==> twice == s)
  {
    var p := s.posts[postId];
    var twice := ToggleLike(ToggleLike(s, postId, userId).value, postId, userId).value;
    if userId in p.likedUsers {
      assert p.likedUsers - {userId} + {userId} == p.likedUsers;
    } else {
      assert p.likedUsers + {userId} - {userId} == p.likedUsers;
    }
    if p.likes == |p.likedUsers| {
      assert twice.posts[postId] == p;
      assert twice.posts == s.posts;
    }
  }

  /** The `CommentDto` of a comment: its parent id is null exactly when it has no parent. */
  function ToCommentDto(c: Comment): (d: CommentDto)
    ensures d.id == c.id && d.content == c.content
    ensures d.userId == c.author.id && d.userNickname == c.author.nickname
    ensures d.parentId.None? <==> c.parentId.None?
    ensures c.parentId.Some? ==> d.parentId == c.parentId
  {
    CommentDto(c.id, c.content, c.author.id, c.author.nickname, c.parentId)
  }

  /** `toResponseDto(post, userId)`: the post's fields, its POST images, whether the viewer
      liked it, and one comment DTO per comment in order, counted. */
  function ToResponseDto(s: PostStore, row: PostRow, viewer: UserId): (r: PostResponse)
    ensures r.id == row.id && r.title == row.post.title && r.content == row.post.content
    ensures r.category == row.post.category && r.likes == row.post.likes
    ensures r.userId == row.post.owner.id && r.userNickname == row.post.owner.nickname
    ensures r.isLiked <==> viewer in row.post.likedUsers
    ensures r.images == ImageUrls(s.images, POST, row.id)
    ensures r.commentCount == |r.comments| == |row.post.comments|
    ensures forall i :: 0 <= i < |r.comments| ==> r.comments[i] == ToCommentDto(row.post.comments[i])
  {
    var p := row.post;
    var dtos := seq(|p.comments|, i requires 0 <= i < |p.comments| => ToCommentDto(p.comments[i]));
    PostResponse(row.id, p.title, p.content, p.category, p.owner.id, p.owner.nickname, p.likes,
                 viewer in p.likedUsers, ImageUrls(s.images, POST, row.id), |dtos|, dtos)
  }

  /** `getPost(id, userId)`: the post's DTO, or `PostNotFound`. */
  function GetPost(s: PostStore, id: PostId, viewer: UserId): (r: Result<PostResponse, PostError>)
    ensures r.Err? <==> id !in s.posts
    ensures r.Err? ==> r.error == PostNotFound
    ensures r.Ok? ==> r.value == ToResponseDto(s, PostRow(id, s.posts[id]), viewer)
  {
    if id in s.posts then Ok(ToResponseDto(s, PostRow(id, s.posts[id]), viewer)) else Err(PostNotFound)
  }

  /** The projection shared by `getAllPosts`, `getMyPosts`, `getPostsByCursor`,
      `searchPostsByTitle` and `filterPostsByCategory`: one DTO per repository row, in order. */
  function ListPosts(s: PostStore, rows: seq<PostRow>, viewer: UserId): (r: seq<PostResponse>)
    ensures |r| == |rows|
    ensures forall i :: 0 <= i < |rows| ==> r[i] == ToResponseDto(s, rows[i], viewer)
    ensures forall i :: 0 <= i < |rows| ==> r[i].id == rows[i].id
  {
    seq(|rows|, i requires 0 <= i < |rows| => ToResponseDto(s, rows[i], viewer))
  }

  /** Listing two batches of rows one after the other is listing them together, as a cursor
      page followed by the next one. */
  lemma ListPostsAppend(s: PostStore, a: seq<PostRow>, b: seq<PostRow>, viewer: UserId)
    ensures ListPosts(s, a + b, viewer) == ListPosts(s, a, viewer) + ListPosts(s, b, viewer)
  {
    var l, la, lb := ListPosts(s, a + b, viewer), ListPosts(s, a, viewer), ListPosts(s, b, viewer);
    forall i | 0 <= i < |l| ensures l[i] == (la + lb)[i] {
      if i >= |a| { assert (a + b)[i] == b[i - |a|]; }
    }
  }

  /** A row of the popular-posts query: a post and its recent comment count. */
  datatype PopularRow = PopularRow(row: PostRow, commentCount: int)

  /** `getPopularPosts(userId)`: one DTO per query row, in order; the comment count the query
      computes is read and dropped. */
  function GetPopularPosts(s: PostStore, rows: seq<PopularRow>, viewer: UserId): (r: seq<PostResponse>)
    ensures |r| == |rows|
    ensures forall i :: 0 <= i < |rows| ==> r[i] == ToResponseDto(s, rows[i].row, viewer)
  {
    seq(|rows|, i requires 0 <= i < |rows| => ToResponseDto(s, rows[i].row, viewer))
  }

  /** The popular-posts result does not depend on the query's comment counts. */
  lemma PopularIgnoresCommentCounts(s: PostStore, a: seq<PopularRow>, b: seq<PopularRow>, viewer: UserId)
    requires |a| == |b|
    requires forall i :: 0 <= i < |a| ==> a[i].row == b[i].row
    ensures GetPopularPosts(s, a, viewer) == GetPopularPosts(s, b, viewer)
  {
  }

  /** A fresh post without images reads back with no images, no comments, no likes, and not
      liked by anyone. */
  lemma CreateThenGet(s: PostStore, req: PostRequest, userId: UserId, viewer: UserId)
    requires Valid(s) && userId in s.users
    ensures var c := CreatePostWithImages(s, req, None, userId).value;
      GetPost(c.store, c.value, viewer)
        == Ok(PostResponse(c.value, req.title, req.content, req.category, userId, s.users[userId],
                           0, false, [], 0, []))
  {
    var c := CreatePostWithImages(s, req, None, userId).value;
    var rows := c.store.images.rows;
    forall i | 0 <= i < |rows| ensures !Belongs(rows[i], POST, c.value) {
      assert rows[i] in s.images.rows;
    }
    MatchingNone(rows, POST, c.value);
  }
}

=== FILE: seqs.dfy ===
/** Order-preserving removal from sequences: JavaScript's `list.filter((id) => id !== x)`
    and the same filter applied for a whole set of values. */
module Seqs {

  /** `s` with every occurrence of `x` removed, the other elements kept in order. */
  function Without<T(==,!new)>(s: seq<T>, x: T): (r: seq<T>)
    ensures forall y :: y in r <==> y in s && y != x
    ensures multiset(r) == multiset(s)[x := 0]
    ensures |r| <= |s|
  {
    if |s| == 0 then []
    else
      assert s == [s[0]] + s[1..];
      if s[0] == x then Without(s[1..], x) else [s[0]] + Without(s[1..], x)
  }

  /** `s` with every element of `xs` removed, the other elements kept in order. */
  function WithoutAll<T(==,!new)>(s: seq<T>, xs: set<T>): (r: seq<T>)
    ensures forall y :: y in r <==> y in s && y !in xs
    ensures |r| <= |s|
  {
    if |s| == 0 then []
    else
      assert s == [s[0]] + s[1..];
      if s[0] in xs then WithoutAll(s[1..], xs) else [s[0]] + WithoutAll(s[1..], xs)
  }

  /** `WithoutAll` keeps every element outside the set as often as `s` holds it. */
  lemma {:induction false} WithoutAllCount<T(!new)>(s: seq<T>, xs: set<T>)
    ensures forall y :: y !in xs ==> multiset(WithoutAll(s, xs))[y] == multiset(s)[y]
  {
    if |s| > 0 {
      assert s == [s[0]] + s[1..];
      WithoutAllCount(s[1..], xs);
    }
  }

  /** Filtering distributes over concatenation, so `Without` keeps the relative order of what it keeps. */
  lemma {:induction false} WithoutAppend<T(!new)>(a: seq<T>, b: seq<T>, x: T)
    ensures Without(a + b, x) == Without(a, x) + Without(b, x)
  {
    if |a| == 0 {
      assert a + b == b;
    } else {
      assert (a + b)[1..] == a[1..] + b;
      WithoutAppend(a[1..], b, x);
    }
  }

  /** Removing one value is removing the singleton set of it. */
  lemma {:induction false} WithoutIsWithoutAll<T(!new)>(s: seq<T>, x: T)
    ensures Without(s, x) == WithoutAll(s, {x})
  {
    if |s| > 0 {
      WithoutIsWithoutAll(s[1..], x);
    }
  }

  /** Two successive removals are one removal of the union. */
  lemma {:induction false} WithoutAllTwice<T(!new)>(s: seq<T>, xs: set<T>, ys: set<T>)
    ensures WithoutAll(WithoutAll(s, xs), ys) == WithoutAll(s, xs + ys)
  {
    if |s| > 0 {
      WithoutAllTwice(s[1..], xs, ys);
      if s[0] !in xs {
        assert WithoutAll(s, xs) == [s[0]] + WithoutAll(s[1..], xs);
        assert WithoutAll(s, xs)[1..] == WithoutAll(s[1..], xs);
      }
    }
  }

  /** Removing nothing changes nothing. */
  lemma {:induction false} WithoutAllEmpty<T(!new)>(s: seq<T>)
    ensures WithoutAll(s, {}) == s
  {
    var none: set<T> := {};
    if |s| > 0 {
      assert s[0] !in none;
      assert WithoutAll(s, none) == [s[0]] + WithoutAll(s[1..], none);
      WithoutAllEmpty(s[1..]);
      assert s == [s[0]] + s[1..];
    }
  }

  /** Removal is idempotent: filtering an already filtered list again changes nothing. */
  lemma {:induction false} WithoutIdempotent<T(!new)>(s: seq<T>, x: T)
    ensures Without(Without(s, x), x) == Without(s, x)
  {
    if |s| > 0 {
      WithoutIdempotent(s[1..], x);
    }
  }
}

=== FILE: signalling.dfy ===
/** The room registry of the media signalling server (nodejs/server.js).

    The server keeps plain JavaScript objects keyed by room id and socket id.
    Every socket event handler runs to completion on the event loop, so each
    event is one atomic transition `(state, socket, event) -> (state', replies, notices)`.
    Results of mediasoup calls (transport, producer and consumer creation, `canConsume`)
    are inputs of the event: the model does not see the media library. */
module Signalling {
  import opened Wrappers
  import opened Seqs

  type SocketId = string
  type TransportId = string
  type ProducerId = string
  type ConsumerId = string

  /** A property name of one of the server's objects: the string form of a room id. */
  type RoomKey = string

  /** A `roomId` as a client sends it: `None` when the field is missing (`undefined`). */
  type RoomArg = Option<string>

  /** `!roomId` in JavaScript: a missing id or the empty string. */
  predicate Falsy(roomId: RoomArg) {
    roomId.None? || roomId.value == ""
  }

  /** The property a room id selects in an object: `String(roomId)`, so a missing id is "undefined". */
  function Key(roomId: RoomArg): (k: RoomKey)
    ensures k == "" <==> roomId == Some("")
  {
    match roomId
    case None => "undefined"
    case Some(s) => s
  }

  /** One entry of `producerOwners[socket.id]`: a producer and the room it was created in. */
  datatype Ownership = Ownership(roomId: RoomKey, producerId: ProducerId)

  /** The server's module-level objects. `transports` keeps only the ids: the transport
      objects themselves belong to the media library. */
  datatype State = State(
    transports: set<TransportId>,
    producers: map<RoomKey, seq<ProducerId>>,
    consumers: map<RoomKey, map<SocketId, ConsumerId>>,
    clients: map<RoomKey, seq<SocketId>>,
    producerOwners: map<SocketId, seq<Ownership>>)

  /** The state right after start-up: every object is empty. */
  const Initial := State({}, map[], map[], map[], map[])

  /** The `{ error }` payloads the handlers send back through the acknowledgement callback. */
  datatype HandlerError =
    | RoomIdRequired
    | TransportNotFound
    | CannotConsume
    | LibraryError(message: string)

  /** A value passed to the acknowledgement callback. */
  datatype Reply =
    | Failed(error: HandlerError)
    | TransportCreated(id: TransportId)
    | Produced(id: ProducerId)
    | ProducerList(ids: seq<ProducerId>)
    | Consumed(id: ConsumerId, producerId: ProducerId)

  /** A message the server emits: `io.to(socketId)` for the first and last kind,
      `io.to(roomId)` for `RemoveConsumer`. */
  datatype Notice =
    | TriggerConsumeNew(to: SocketId, producerId: ProducerId, roomId: RoomArg)
    | RemoveConsumer(room: RoomKey, producerId: ProducerId)
    | TriggerConsume(to: SocketId)

  /** What a media library call answered: the id of the object it created, or the error it threw. */
  datatype LibraryOutcome = Created(id: string) | Threw(message: string)

  /** The socket events whose handlers touch the registry. */
  datatype Event =
    | CreateTransport(outcome: LibraryOutcome)
    | Produce(roomId: RoomArg, transportId: TransportId, outcome: LibraryOutcome)
    | CloseProducer(producerId: ProducerId, roomId: RoomArg)
    | GetProducers(roomId: RoomArg)
    | Consume(roomId: RoomArg, transportId: TransportId, producerId: ProducerId,
              canConsume: bool, outcome: LibraryOutcome)
    | JoinRoom(roomId: RoomArg)
    | Disconnect
    | RequestConsume(roomId: RoomArg)

  /** The effect of handling one event. */
  datatype Step = Step(state: State, replies: seq<Reply>, notices: seq<Notice>)

  /** `clients[roomId] || []`. */
  function ClientsOf(st: State, k: RoomKey): seq<SocketId> {
    GetOr(st.clients, k, [])
  }

  /** `producers[roomId] || []`. */
  function ProducersOf(st: State, k: RoomKey): seq<ProducerId> {
    GetOr(st.producers, k, [])
  }

  /** The sockets a per-socket notice is addressed to, in emission order; room-wide notices are skipped. */
  function Addressees(ns: seq<Notice>): (r: seq<SocketId>)
    ensures |r| <= |ns|
  {
    if |ns| == 0 then []
    else if ns[0].RemoveConsumer? then Addressees(ns[1..])
    else [ns[0].to] + Addressees(ns[1..])
  }

  // ---------------------------------------------------------------- handlers

  /** `createTransport`: records the new transport's id, or replies with the library's error. */
  function OnCreateTransport(st: State, outcome: LibraryOutcome): (r: Step)
    ensures outcome.Created? ==>
      && r.state.transports == st.transports + {outcome.id}
      && r.state == st.(transports := r.state.transports)
      && r.replies == [TransportCreated(outcome.id)]
    ensures outcome.Threw? ==> r == Step(st, [Failed(LibraryError(outcome.message))], [])
    ensures r.notices == []
  {
    match outcome
    case Created(id) => Step(st.(transports := st.transports + {id}), [TransportCreated(id)], [])
    case Threw(msg) => Step(st, [Failed(LibraryError(msg))], [])
  }

  /** One `triggerConsumeNew` per other client of the room, in client-list order. */
  function NewProducerNotices(targets: seq<SocketId>, producerId: ProducerId, roomId: RoomArg): (r: seq<Notice>)
    ensures |r| == |targets|
    ensures forall i :: 0 <= i < |r| ==> r[i] == TriggerConsumeNew(targets[i], producerId, roomId)
  {
    seq(|targets|, i requires 0 <= i < |targets| => TriggerConsumeNew(targets[i], producerId, roomId))
  }

  /** `produce`: validates the room id and the transport, then registers the producer
      the library created under its room and under the producing socket, and asks every
      other client of the room to consume it. */
  function OnProduce(st: State, sock: SocketId, roomId: RoomArg, transportId: TransportId,
                     outcome: LibraryOutcome): (r: Step)
    ensures Falsy(roomId) ==> r == Step(st, [Failed(RoomIdRequired)], [])
    ensures !Falsy(roomId) && transportId !in st.transports ==>
      r == Step(st, [Failed(TransportNotFound)], [])
    ensures !Falsy(roomId) && transportId in st.transports && outcome.Threw? ==>
      r == Step(st, [Failed(LibraryError(outcome.message))], [])
    ensures !Falsy(roomId) && transportId in st.transports && outcome.Created? ==>
      var k := Key(roomId);
      var pid := outcome.id;
      && r.replies == [Produced(pid)]
      && r.state.producers.Keys == st.producers.Keys + {k}
      && r.state.producers[k] == ProducersOf(st, k) + [pid]
      && (forall k' :: k' in st.producers && k' != k ==> r.state.producers[k'] == st.producers[k'])
      && r.state.producerOwners.Keys == st.producerOwners.Keys + {sock}
      && r.state.producerOwners[sock] == GetOr(st.producerOwners, sock, []) + [Ownership(k, pid)]
      && (forall s :: s in st.producerOwners && s != sock ==> r.state.producerOwners[s] == st.producerOwners[s])
      && r.state.clients == st.clients
      && r.state.transports == st.transports
      && r.state.consumers == st.consumers
      && r.notices == NewProducerNotices(Without(ClientsOf(st, k), sock), pid, roomId)
  {
    if Falsy(roomId) then Step(st, [Failed(RoomIdRequired)], [])
    else if transportId !in st.transports then Step(st, [Failed(TransportNotFound)], [])
    else match outcome
      case Threw(msg) => Step(st, [Failed(LibraryError(msg))], [])
      case Created(pid) =>
        var k := Key(roomId);
        var producers' := st.producers[k := ProducersOf(st, k) + [pid]];
        var owners' := st.producerOwners[sock := GetOr(st.producerOwners, sock, []) + [Ownership(k, pid)]];
        var others := Without(ClientsOf(st, k), sock);
        Step(st.(producers := producers', producerOwners := owners'), [Produced(pid)],
             NewProducerNotices(others, pid, roomId))
  }

  /** `closeProducer`: drops every occurrence of the id from the room's producer list,
      deletes the room's entry once the list is empty, and tells the room. It does not
      check who owns the producer and leaves `producerOwners` as it is. */
  function OnCloseProducer(st: State, producerId: ProducerId, roomId: RoomArg): (r: Step)
    ensures Key(roomId) !in st.producers ==> r == Step(st, [], [])
    ensures Key(roomId) in st.producers ==>
      var k := Key(roomId);
      && producerId !in ProducersOf(r.state, k)
      && multiset(ProducersOf(r.state, k)) == multiset(st.producers[k])[producerId := 0]
      && (k in r.state.producers ==> r.state.producers[k] == Without(st.producers[k], producerId))
      && (k in r.state.producers <==> exists p :: p in st.producers[k] && p != producerId)
      && r.state.producers.Keys <= st.producers.Keys
      && (forall k' :: k' in st.producers && k' != k ==> k' in r.state.producers && r.state.producers[k'] == st.producers[k'])
      && r.state == st.(producers := r.state.producers)
      && r.notices == [RemoveConsumer(k, producerId)]
    ensures r.replies == []
  {
    var k := Key(roomId);
    if k !in st.producers then Step(st, [], [])
    else
      var remaining := Without(st.producers[k], producerId);
      var producers' := if |remaining| == 0 then st.producers - {k} else st.producers[k := remaining];
      assert |remaining| > 0 ==> remaining[0] in st.producers[k] && remaining[0] != producerId;
      Step(st.(producers := producers'), [], [RemoveConsumer(k, producerId)])
  }

  /** `getProducers`: the room's producer list, or `[]` for an empty room id or an unknown room. */
  function OnGetProducers(st: State, roomId: RoomArg): (r: Step)
    ensures r.state == st && r.notices == []
    ensures Key(roomId) == "" ==> r.replies == [ProducerList([])]
    ensures Key(roomId) != "" && Key(roomId) in st.producers ==> r.replies == [ProducerList(st.producers[Key(roomId)])]
    ensures Key(roomId) !in st.producers ==> r.replies == [ProducerList([])]
  {
    var k := Key(roomId);
    if k == "" then Step(st, [ProducerList([])], [])
    else Step(st, [ProducerList(ProducersOf(st, k))], [])
  }

  /** `consume`: validates room id, transport and `canConsume`, then records the consumer the
      library created under the room and the consuming socket (replacing any earlier one). */
  function OnConsume(st: State, sock: SocketId, roomId: RoomArg, transportId: TransportId,
                     producerId: ProducerId, canConsume: bool, outcome: LibraryOutcome): (r: Step)
    ensures Falsy(roomId) ==> r == Step(st, [Failed(RoomIdRequired)], [])
    ensures !Falsy(roomId) && transportId !in st.transports ==> r == Step(st, [Failed(TransportNotFound)], [])
    ensures !Falsy(roomId) && transportId in st.transports && !canConsume ==>
      r == Step(st, [Failed(CannotConsume)], [])
    ensures !Falsy(roomId) && transportId in st.transports && canConsume && outcome.Threw? ==>
      r == Step(st, [Failed(LibraryError(outcome.message))], [])
    ensures !Falsy(roomId) && transportId in st.transports && canConsume && outcome.Created? ==>
      var k := Key(roomId);
      && r.replies == [Consumed(outcome.id, producerId)]
      && r.state.consumers.Keys == st.consumers.Keys + {k}
      && r.state.consumers[k] == GetOr(st.consumers, k, map[])[sock := outcome.id]
      && (forall k' :: k' in st.consumers && k' != k ==> r.state.consumers[k'] == st.consumers[k'])
      && r.state == st.(consumers := r.state.consumers)
    ensures r.notices == []
  {
    if Falsy(roomId) then Step(st, [Failed(RoomIdRequired)], [])
    else if transportId !in st.transports then Step(st, [Failed(TransportNotFound)], [])
    else if !canConsume then Step(st, [Failed(CannotConsume)], [])
    else match outcome
      case Threw(msg) => Step(st, [Failed(LibraryError(msg))], [])
      case Created(cid) =>
        var k := Key(roomId);
        var inRoom := GetOr(st.consumers, k, map[])[sock := cid];
        Step(st.(consumers := st.consumers[k := inRoom]), [Consumed(cid, producerId)], [])
  }

  /** `joinRoom`: appends the socket to the room's client list, creating the list if needed.
      There is no duplicate check. */
  function OnJoinRoom(st: State, sock: SocketId, roomId: RoomArg): (r: Step)
    ensures var k := Key(roomId);
      && r.state.clients.Keys == st.clients.Keys + {k}
      && r.state.clients[k] == ClientsOf(st, k) + [sock]
      && (forall k' :: k' in st.clients && k' != k ==> r.state.clients[k'] == st.clients[k'])
      && r.state == st.(clients := r.state.clients)
    ensures r.replies == [] && r.notices == []
  {
    var k := Key(roomId);
    Step(st.(clients := st.clients[k := ClientsOf(st, k) + [sock]]), [], [])
  }

  /** The client lists after `sock` leaves: the socket is filtered out of every list and
      every list left empty is deleted. */
  function RemoveClient(clients: map<RoomKey, seq<SocketId>>, sock: SocketId): (r: map<RoomKey, seq<SocketId>>)
    ensures forall k :: k in r ==> sock !in r[k] && |r[k]| > 0
    ensures forall k :: k in r <==> k in clients && exists s :: s in clients[k] && s != sock
    ensures forall k :: k in r ==> r[k] == Without(clients[k], sock)
  {
    var r := map k | k in clients && |Without(clients[k], sock)| > 0 :: Without(clients[k], sock);
    assert forall k :: k in clients && (exists s :: s in clients[k] && s != sock) ==> k in r by {
      forall k | k in clients && (exists s :: s in clients[k] && s != sock) ensures k in r {
        var s :| s in clients[k] && s != sock;
        assert s in Without(clients[k], sock);
      }
    }
    forall k | k in r ensures exists s :: s in clients[k] && s != sock {
      var w := Without(clients[k], sock);
      assert w[0] in w;
    }
    r
  }

  /** The producer ids `owned` records in room `k`. */
  function OwnedIn(owned: seq<Ownership>, k: RoomKey): set<ProducerId> {
    set i | 0 <= i < |owned| && owned[i].roomId == k :: owned[i].producerId
  }

  /** The producer lists after the `forEach` over a disconnected socket's ownership records:
      each owned producer is filtered out of its room's list when that list exists.
      Unlike `closeProducer`, emptied lists stay in place. */
  function CleanupProducers(producers: map<RoomKey, seq<ProducerId>>, owned: seq<Ownership>): (r: map<RoomKey, seq<ProducerId>>)
    ensures r.Keys == producers.Keys
    ensures forall k :: k in producers ==> r[k] == WithoutAll(producers[k], OwnedIn(owned, k))
    ensures |owned| == 0 ==> r == producers
    decreases |owned|
  {
    if |owned| == 0 then
      assert forall k :: k in producers ==> WithoutAll(producers[k], OwnedIn(owned, k)) == producers[k] by {
        forall k | k in producers ensures WithoutAll(producers[k], OwnedIn(owned, k)) == producers[k] {
          assert OwnedIn(owned, k) == {};
          WithoutAllEmpty(producers[k]);
        }
      }
      producers
    else
      var r := CleanupProducers(RemoveOwned(producers, owned[0]), owned[1..]);
      assert forall k :: k in producers ==> r[k] == WithoutAll(producers[k], OwnedIn(owned, k)) by {
        forall k | k in producers ensures r[k] == WithoutAll(producers[k], OwnedIn(owned, k)) {
          CleanupFirstRecord(producers, owned, k);
        }
      }
      r
  }

  /** One iteration of the cleanup: the record's producer is filtered out of its room's list
      when that list exists. */
  function RemoveOwned(producers: map<RoomKey, seq<ProducerId>>, o: Ownership): (r: map<RoomKey, seq<ProducerId>>)
    ensures r.Keys == producers.Keys
    ensures forall k :: k in producers && k != o.roomId ==> r[k] == producers[k]
    ensures o.roomId in producers ==> r[o.roomId] == Without(producers[o.roomId], o.producerId)
  {
    if o.roomId in producers then producers[o.roomId := Without(producers[o.roomId], o.producerId)] else producers
  }

  /** Handling the first ownership record and then the rest removes, from each room's list,
      exactly the producers the whole list records in that room. */
  lemma CleanupFirstRecord(producers: map<RoomKey, seq<ProducerId>>, owned: seq<Ownership>, k: RoomKey)
    requires |owned| > 0 && k in producers
    ensures WithoutAll(RemoveOwned(producers, owned[0])[k], OwnedIn(owned[1..], k))
            == WithoutAll(producers[k], OwnedIn(owned, k))
  {
    var o := owned[0];
    OwnedInCons(owned, k);
    if k == o.roomId {
      WithoutIsWithoutAll(producers[k], o.producerId);
      WithoutAllTwice(producers[k], {o.producerId}, OwnedIn(owned[1..], k));
    }
  }

  /** Splitting the first ownership record off the list. */
  lemma OwnedInCons(owned: seq<Ownership>, k: RoomKey)
    requires |owned| > 0
    ensures owned[0].roomId == k ==> OwnedIn(owned, k) == {owned[0].producerId} + OwnedIn(owned[1..], k)
    ensures owned[0].roomId != k ==> OwnedIn(owned, k) == OwnedIn(owned[1..], k)
  {
    var tail := owned[1..];
    forall p | p in OwnedIn(tail, k) ensures p in OwnedIn(owned, k) {
      var i :| 0 <= i < |tail| && tail[i].roomId == k && tail[i].producerId == p;
      assert owned[i + 1] == tail[i];
    }
    forall p | p in OwnedIn(owned, k) ensures p in OwnedIn(tail, k) || (owned[0].roomId == k && p == owned[0].producerId) {
      var i :| 0 <= i < |owned| && owned[i].roomId == k && owned[i].producerId == p;
      if i > 0 { assert tail[i - 1] == owned[i]; }
    }
  }

  /** The ownership records whose room still has a producer list, in record order: those for
      which the cleanup loop finds `producers[roomId]`. */
  function LiveRecords(producers: map<RoomKey, seq<ProducerId>>, owned: seq<Ownership>): (r: seq<Ownership>)
    ensures forall o :: o in r <==> o in owned && o.roomId in producers
    ensures |r| <= |owned|
    ensures (forall i :: 0 <= i < |owned| ==> owned[i].roomId in producers) ==> r == owned
  {
    if |owned| == 0 then []
    else
      assert owned == [owned[0]] + owned[1..];
      var rest := LiveRecords(producers, owned[1..]);
      if owned[0].roomId in producers then [owned[0]] + rest else rest
  }

  /** Every live record keeps its multiplicity, and no other record survives. */
  lemma {:induction false} LiveRecordsCount(producers: map<RoomKey, seq<ProducerId>>, owned: seq<Ownership>)
    ensures forall o :: multiset(LiveRecords(producers, owned))[o] == if o.roomId in producers then multiset(owned)[o] else 0
  {
    if |owned| > 0 {
      assert owned == [owned[0]] + owned[1..];
      LiveRecordsCount(producers, owned[1..]);
    }
  }

  /** The `removeConsumer` messages the cleanup emits: one per ownership record whose room
      still has a producer list, in record order. */
  function CleanupNotices(producers: map<RoomKey, seq<ProducerId>>, owned: seq<Ownership>): (r: seq<Notice>)
    ensures |r| == |LiveRecords(producers, owned)|
    ensures forall i :: 0 <= i < |r| ==>
              r[i] == RemoveConsumer(LiveRecords(producers, owned)[i].roomId, LiveRecords(producers, owned)[i].producerId)
    ensures |owned| == 0 ==> r == []
    ensures forall n :: n in r ==> n.RemoveConsumer? && n.room in producers && Ownership(n.room, n.producerId) in owned
    ensures forall o :: o in owned && o.roomId in producers ==> RemoveConsumer(o.roomId, o.producerId) in r
  {
    if |owned| == 0 then []
    else
      var o := owned[0];
      var rest := CleanupNotices(producers, owned[1..]);
      if o.roomId in producers then [RemoveConsumer(o.roomId, o.producerId)] + rest else rest
  }

  /** `disconnect`: removes the socket from every client list (deleting lists left empty),
      then filters each producer it owned out of its room's list and forgets its ownership records. */
  function OnDisconnect(st: State, sock: SocketId): (r: Step)
    ensures forall k :: k in r.state.clients ==> sock !in r.state.clients[k] && |r.state.clients[k]| > 0
    ensures forall k :: k in st.clients ==> ClientsOf(r.state, k) == Without(st.clients[k], sock)
    ensures r.state.clients.Keys <= st.clients.Keys
    ensures sock !in r.state.producerOwners
    ensures r.state.producerOwners == st.producerOwners - {sock}
    ensures r.state.producers.Keys == st.producers.Keys
    ensures sock !in st.producerOwners ==> r.state.producers == st.producers && r.notices == []
    ensures sock in st.producerOwners ==>
      var live := LiveRecords(st.producers, st.producerOwners[sock]);
      |r.notices| == |live| &&
      forall i :: 0 <= i < |live| ==> r.notices[i] == RemoveConsumer(live[i].roomId, live[i].producerId)
    ensures sock in st.producerOwners ==>
      forall k :: k in st.producers ==>
        r.state.producers[k] == WithoutAll(st.producers[k], OwnedIn(st.producerOwners[sock], k))
    ensures r.state.transports == st.transports && r.state.consumers == st.consumers
    ensures r.replies == []
  {
    var clients' := RemoveClient(st.clients, sock);
    assert forall k :: k in st.clients ==> GetOr(clients', k, []) == Without(st.clients[k], sock);
    var owned := GetOr(st.producerOwners, sock, []);
    Step(st.(clients := clients',
             producers := CleanupProducers(st.producers, owned),
             producerOwners := st.producerOwners - {sock}),
         [], CleanupNotices(st.producers, owned))
  }

  /** `triggerConsume`: when the room has at least one producer, asks every other client of the
      room to consume; otherwise does nothing. Never changes the registry. */
  function OnRequestConsume(st: State, sock: SocketId, roomId: RoomArg): (r: Step)
    ensures r.state == st && r.replies == []
    ensures |ProducersOf(st, Key(roomId))| == 0 ==> r.notices == []
    ensures |ProducersOf(st, Key(roomId))| > 0 ==>
      var others := Without(ClientsOf(st, Key(roomId)), sock);
      |r.notices| == |others| && forall i :: 0 <= i < |others| ==> r.notices[i] == TriggerConsume(others[i])
  {
    var k := Key(roomId);
    if k !in st.producers || |st.producers[k]| == 0 then Step(st, [], [])
    else
      var others := Without(ClientsOf(st, k), sock);
      Step(st, [], seq(|others|, i requires 0 <= i < |others| => TriggerConsume(others[i])))
  }

  /** Dispatches one event of socket `sock` to its handler. */
  function Handle(st: State, sock: SocketId, ev: Event): Step {
    match ev
    case CreateTransport(outcome) => OnCreateTransport(st, outcome)
    case Produce(roomId, transportId, outcome) => OnProduce(st, sock, roomId, transportId, outcome)
    case CloseProducer(producerId, roomId) => OnCloseProducer(st, producerId, roomId)
    case GetProducers(roomId) => OnGetProducers(st, roomId)
    case Consume(roomId, transportId, producerId, canConsume, outcome) =>
      OnConsume(st, sock, roomId, transportId, producerId, canConsume, outcome)
    case JoinRoom(roomId) => OnJoinRoom(st, sock, roomId)
    case Disconnect => OnDisconnect(st, sock)
    case RequestConsume(roomId) => OnRequestConsume(st, sock, roomId)
  }

  // ---------------------------------------------------------------- invariants and properties

  /** What every reachable registry satisfies: no room keeps an empty client list, no socket an
      empty ownership list, and no producer or consumer is ever filed under the empty room id
      (the handlers that create them reject a falsy id). */
  ghost predicate Inv(st: State) {
    && (forall k :: k in st.clients ==> |st.clients[k]| > 0)
    && (forall s :: s in st.producerOwners ==> |st.producerOwners[s]| > 0)
    && (forall s, i :: s in st.producerOwners && 0 <= i < |st.producerOwners[s]| ==> st.producerOwners[s][i].roomId != "")
    && "" !in st.producers
    && "" !in st.consumers
  }

  /** The server starts in a state satisfying the invariant. */
  lemma InitialInv()
    ensures Inv(Initial)
  {
  }

  /** Every handler preserves the invariant. */
  lemma HandlePreservesInv(st: State, sock: SocketId, ev: Event)
    requires Inv(st)
    ensures Inv(Handle(st, sock, ev).state)
  {
    match ev {
      case Produce(roomId, transportId, outcome) =>
        ProducePreservesInv(st, sock, roomId, transportId, outcome);
      case Disconnect =>
        DisconnectPreservesInv(st, sock);
      case CloseProducer(producerId, roomId) =>
        CloseProducerPreservesInv(st, producerId, roomId);
      case Consume(roomId, transportId, producerId, canConsume, outcome) =>
        ConsumePreservesInv(st, sock, roomId, transportId, producerId, canConsume, outcome);
      case JoinRoom(roomId) =>
        JoinRoomPreservesInv(st, sock, roomId);
      case CreateTransport(outcome) =>
      case GetProducers(roomId) =>
      case RequestConsume(roomId) =>
    }
  }

  /** `closeProducer` only filters and deletes producer lists. */
  lemma CloseProducerPreservesInv(st: State, producerId: ProducerId, roomId: RoomArg)
    requires Inv(st)
    ensures Inv(OnCloseProducer(st, producerId, roomId).state)
  {
  }

  /** `consume` files its consumer under a non-empty room id. */
  lemma ConsumePreservesInv(st: State, sock: SocketId, roomId: RoomArg, transportId: TransportId,
                            producerId: ProducerId, canConsume: bool, outcome: LibraryOutcome)
    requires Inv(st)
    ensures Inv(OnConsume(st, sock, roomId, transportId, producerId, canConsume, outcome).state)
  {
  }

  /** `joinRoom` only ever appends to a client list. */
  lemma JoinRoomPreservesInv(st: State, sock: SocketId, roomId: RoomArg)
    requires Inv(st)
    ensures Inv(OnJoinRoom(st, sock, roomId).state)
  {
  }

  /** `produce` files its ownership record under a non-empty room id, so the invariant survives it. */
  lemma ProducePreservesInv(st: State, sock: SocketId, roomId: RoomArg, transportId: TransportId, outcome: LibraryOutcome)
    requires Inv(st)
    ensures Inv(OnProduce(st, sock, roomId, transportId, outcome).state)
  {
    var st' := OnProduce(st, sock, roomId, transportId, outcome).state;
    if !Falsy(roomId) && transportId in st.transports && outcome.Created? {
      assert Key(roomId) != "";
      forall s, i | s in st'.producerOwners && 0 <= i < |st'.producerOwners[s]|
        ensures st'.producerOwners[s][i].roomId != ""
      {
        if s != sock {
          assert st'.producerOwners[s] == st.producerOwners[s];
        } else if i < |GetOr(st.producerOwners, sock, [])| {
          assert st'.producerOwners[s][i] == GetOr(st.producerOwners, sock, [])[i];
        }
      }
    }
  }

  /** `disconnect` only filters and deletes, so the invariant survives it. */
  lemma DisconnectPreservesInv(st: State, sock: SocketId)
    requires Inv(st)
    ensures Inv(OnDisconnect(st, sock).state)
  {
  }

  /** In a reachable state the empty-id guard of `getProducers` is redundant: the reply is
      simply the room's producer list, or `[]`. */
  lemma GetProducersIsLookup(st: State, roomId: RoomArg)
    requires Inv(st)
    ensures OnGetProducers(st, roomId).replies == [ProducerList(ProducersOf(st, Key(roomId)))]
  {
  }

  /** `joinRoom` does not deduplicate: each join adds one more entry for the socket. */
  lemma {:induction false} JoinRoomTwice(st: State, sock: SocketId, roomId: RoomArg)
    ensures var once := OnJoinRoom(st, sock, roomId).state;
            var twice := OnJoinRoom(once, sock, roomId).state;
            multiset(ClientsOf(twice, Key(roomId)))[sock] == multiset(ClientsOf(st, Key(roomId)))[sock] + 2
  {
    var k := Key(roomId);
    var once := OnJoinRoom(st, sock, roomId).state;
    var twice := OnJoinRoom(once, sock, roomId).state;
    assert ClientsOf(twice, k) == ClientsOf(st, k) + [sock] + [sock];
  }

  /** The sockets of a list of `triggerConsumeNew` / `triggerConsume` notices are their targets, in order. */
  lemma {:induction false} AddresseesOfTargeted(ns: seq<Notice>, targets: seq<SocketId>)
    requires |ns| == |targets|
    requires forall i :: 0 <= i < |ns| ==> !ns[i].RemoveConsumer? && ns[i].to == targets[i]
    ensures Addressees(ns) == targets
  {
    if |ns| > 0 {
      AddresseesOfTargeted(ns[1..], targets[1..]);
    }
  }

  /** A successful `produce` notifies exactly the room's other clients: a socket is addressed iff
      it is in the room and is not the producer, and as many times as it appears in the client list. */
  lemma ProduceNotifiesOthers(st: State, sock: SocketId, roomId: RoomArg, transportId: TransportId, pid: ProducerId)
    requires !Falsy(roomId) && transportId in st.transports
    ensures var ns := OnProduce(st, sock, roomId, transportId, Created(pid)).notices;
      && (forall s :: s in Addressees(ns) <==> s in ClientsOf(st, Key(roomId)) && s != sock)
      && (forall s :: s != sock ==> multiset(Addressees(ns))[s] == multiset(ClientsOf(st, Key(roomId)))[s])
      && sock !in Addressees(ns)
  {
    var others := Without(ClientsOf(st, Key(roomId)), sock);
    AddresseesOfTargeted(OnProduce(st, sock, roomId, transportId, Created(pid)).notices, others);
  }

  /** `triggerConsume` obeys the same exclusion rule, and is silent when the room has no producers. */
  lemma RequestConsumeNotifiesOthers(st: State, sock: SocketId, roomId: RoomArg)
    ensures var ns := OnRequestConsume(st, sock, roomId).notices;
      && (|ProducersOf(st, Key(roomId))| == 0 ==> ns == [])
      && (|ProducersOf(st, Key(roomId))| > 0 ==>
            forall s :: s in Addressees(ns) <==> s in ClientsOf(st, Key(roomId)) && s != sock)
  {
    var ns := OnRequestConsume(st, sock, roomId).notices;
    if |ProducersOf(st, Key(roomId))| > 0 {
      AddresseesOfTargeted(ns, Without(ClientsOf(st, Key(roomId)), sock));
    }
  }

  /** Closing the same producer twice leaves the registry as closing it once. */
  lemma CloseProducerIdempotent(st: State, producerId: ProducerId, roomId: RoomArg)
    ensures var once := OnCloseProducer(st, producerId, roomId).state;
            OnCloseProducer(once, producerId, roomId).state == once
  {
    var k := Key(roomId);
    if k in st.producers {
      WithoutIdempotent(st.producers[k], producerId);
    }
  }

  /** After `disconnect` a socket that owned producers in a room has none of them left there. */
  lemma DisconnectRemovesOwnedProducers(st: State, sock: SocketId, o: Ownership)
    requires sock in st.producerOwners && o in st.producerOwners[sock] && o.roomId in st.producers
    ensures o.producerId !in OnDisconnect(st, sock).state.producers[o.roomId]
  {
    var i :| 0 <= i < |st.producerOwners[sock]| && st.producerOwners[sock][i] == o;
    assert o.producerId in OwnedIn(st.producerOwners[sock], o.roomId);
  }

  /** The contrast with `closeProducer`: when a socket owned the only producer of a room,
      `disconnect` leaves the room an empty producer list while `closeProducer` deletes the entry. */
  lemma DisconnectKeepsEmptyProducerList()
    ensures var st := Initial.(producers := map["r" := ["p"]],
                               producerOwners := map["s" := [Ownership("r", "p")]]);
      && OnDisconnect(st, "s").state.producers == map["r" := []]
      && OnCloseProducer(st, "p", Some("r")).state.producers == map[]
  {
    var st := Initial.(producers := map["r" := ["p"]], producerOwners := map["s" := [Ownership("r", "p")]]);
    OwnedInCons(st.producerOwners["s"], "r");
    assert OwnedIn(st.producerOwners["s"][1..], "r") == {};
  }
}

=== FILE: tomorrow.dfy ===
/** The challenge API helpers of frontend/src/lib/api/tomorrow.ts.

    The HTTP calls themselves are inputs: each helper is given what its request produced,
    and states the request it issues. */
module TomorrowApi {
  import opened Wrappers
  import opened JsValues
  import opened HttpCalls

  /** `transformChallengeDetail(data)`: the response object with `isLike` set to its `liked`
      field and `isParticipating` set to its `participating` field; every other field is
      copied by the spread, and the original `liked` / `participating` fields stay. */
  function TransformChallengeDetail(data: map<string, Value>): (r: map<string, Value>)
    ensures r.Keys == data.Keys + {"isLike", "isParticipating"}
    ensures r["isLike"] == Get(data, "liked")
    ensures r["isParticipating"] == Get(data, "participating")
    ensures forall k :: k in data && k != "isLike" && k != "isParticipating" ==> r[k] == data[k]
  {
    data["isLike" := Get(data, "liked")]["isParticipating" := Get(data, "participating")]
  }

  /** Transforming an already transformed object changes nothing when its flags were in step. */
  lemma TransformIdempotent(data: map<string, Value>)
    requires "isLike" in data && "isParticipating" in data
    requires data["isLike"] == Get(data, "liked") && data["isParticipating"] == Get(data, "participating")
    ensures TransformChallengeDetail(data) == data
  {
    var r := TransformChallengeDetail(data);
    assert r.Keys == data.Keys;
  }

  /** One entry of the participated-challenges list; only the id is read. */
  datatype ParticipatedChallenge = ParticipatedChallenge(id: int)

  /** The outcome of `fetchParticipatedChallenges`: the list, or the error it throws. */
  datatype Fetched = Challenges(list: seq<ParticipatedChallenge>) | FetchFailed

  /** `checkParticipationStatus(challengeId)`: true iff some participated challenge has that id;
      a failed fetch is caught and answers false. */
  method CheckParticipationStatus(fetched: Fetched, challengeId: int) returns (participating: bool)
    ensures participating <==> fetched.Challenges? && exists i :: 0 <= i < |fetched.list| && fetched.list[i].id == challengeId
  {
    if fetched.FetchFailed? {
      return false;
    }
    var list := fetched.list;
    participating := false;
    var i := 0;
    while i < |list| && !participating
      invariant 0 <= i <= |list|
      invariant participating <==> exists j :: 0 <= j < i && list[j].id == challengeId
    {
      participating := list[i].id == challengeId;
      i := i + 1;
    }
  }

  /** The path `/challenges/{challengeId}/{action}`. */
  function ChallengePath(challengeId: int, action: string): seq<PathPart> {
    [Segment("challenges"), Param(challengeId), Segment(action)]
  }

  /** `joinChallenge(challengeId)`: POSTs to `/challenges/{id}/join`; true when the request
      resolved, false on any error; never throws. */
  function JoinChallenge(challengeId: int, outcome: Outcome<()>): (r: (Request, bool))
    ensures r.0 == Bare(POST, ChallengePath(challengeId, "join"))
    ensures r.1 <==> outcome.Response?
  {
    (Bare(POST, ChallengePath(challengeId, "join")), outcome.Response?)
  }

  /** `leaveChallenge(challengeId)`: DELETEs `/challenges/{id}/leave`; true when the request
      resolved, false on any error; never throws. */
  function LeaveChallenge(challengeId: int, outcome: Outcome<()>): (r: (Request, bool))
    ensures r.0 == Bare(DELETE, ChallengePath(challengeId, "leave"))
    ensures r.1 <==> outcome.Response?
  {
    (Bare(DELETE, ChallengePath(challengeId, "leave")), outcome.Response?)
  }

  /** `toggleChallengeLike(challengeId)`: POSTs to `/challenges/{id}/like`; true when the
      request resolved, false on any error; never throws. */
  function ToggleChallengeLike(challengeId: int, outcome: Outcome<()>): (r: (Request, bool))
    ensures r.0 == Bare(POST, ChallengePath(challengeId, "like"))
    ensures r.1 <==> outcome.Response?
  {
    (Bare(POST, ChallengePath(challengeId, "like")), outcome.Response?)
  }

  /** The text form of a boolean in a URL. */
  function BoolText(b: bool): string {
    if b then "true" else "false"
  }

  /** `recordChallengeSuccess(challengeId, isSuccess)`: POSTs to `/records/{id}` with the flag
      both as query parameter and in the body; true when the request resolved, false on any
      error; never throws. */
  function RecordChallengeSuccess(challengeId: int, isSuccess: bool, outcome: Outcome<()>): (r: (Request, bool))
    ensures r.0.verb == POST && r.0.path == [Segment("records"), Param(challengeId)]
    ensures r.0.query == map["isSuccess" := BoolText(isSuccess)]
    ensures r.0.body == Some(Obj(map["isSuccess" := Bool(isSuccess)]))
    ensures r.1 <==> outcome.Response?
  {
    var q := Request(POST, [Segment("records"), Param(challengeId)],
                     map["isSuccess" := BoolText(isSuccess)], Some(Obj(map["isSuccess" := Bool(isSuccess)])));
    (q, outcome.Response?)
  }

  /** The request `recordChallengeSuccess` issues names its challenge and its flag: equal
      requests mean the same challenge and the same outcome, and query and body carry the same flag. */
  lemma RecordRequestIdentifies(a: int, b: int, x: bool, y: bool, o: Outcome<()>, o': Outcome<()>)
    ensures RecordChallengeSuccess(a, x, o).0 == RecordChallengeSuccess(b, y, o').0 <==> a == b && x == y
    ensures RecordChallengeSuccess(a, x, o).0.query["isSuccess"] == "true" <==>
            RecordChallengeSuccess(a, x, o).0.body == Some(Obj(map["isSuccess" := Bool(true)]))
  {
    if RecordChallengeSuccess(a, x, o).0.body == Some(Obj(map["isSuccess" := Bool(true)])) {
      assert map["isSuccess" := Bool(x)]["isSuccess"] == Bool(true);
    }
    if RecordChallengeSuccess(a, x, o).0 == RecordChallengeSuccess(b, y, o').0 {
      assert RecordChallengeSuccess(a, x, o).0.path[1] == Param(a);
      assert map["isSuccess" := BoolText(x)]["isSuccess"] == BoolText(x);
    }
  }

  /** The three challenge actions address different requests, and each request names its challenge:
      equal requests mean the same action on the same challenge. */
  lemma ChallengeRequestsIdentify(a: int, b: int, x: Outcome<()>, y: Outcome<()>)
    ensures JoinChallenge(a, x).0 == JoinChallenge(b, y).0 <==> a == b
    ensures LeaveChallenge(a, x).0 == LeaveChallenge(b, y).0 <==> a == b
    ensures ToggleChallengeLike(a, x).0 == ToggleChallengeLike(b, y).0 <==> a == b
    ensures JoinChallenge(a, x).0 != LeaveChallenge(b, y).0
    ensures JoinChallenge(a, x).0 != ToggleChallengeLike(b, y).0
    ensures LeaveChallenge(a, x).0 != ToggleChallengeLike(b, y).0
  {
    if JoinChallenge(a, x).0 == JoinChallenge(b, y).0 {
      assert ChallengePath(a, "join")[1] == ChallengePath(b, "join")[1];
    }
    if LeaveChallenge(a, x).0 == LeaveChallenge(b, y).0 {
      assert ChallengePath(a, "leave")[1] == ChallengePath(b, "leave")[1];
    }
    if ToggleChallengeLike(a, x).0 == ToggleChallengeLike(b, y).0 {
      assert ChallengePath(a, "like")[1] == ChallengePath(b, "like")[1];
    }
    assert ChallengePath(a, "join")[2] != ChallengePath(b, "like")[2];
  }
}

=== FILE: wrappers.dfy ===
/** Failure-compatible result types shared by every module of the model. */
module Wrappers {

  /** A value that may be absent: JavaScript's `undefined` and Java's `null` / empty `Optional`. */
  datatype Option<+T> = None | Some(value: T)

  /** The outcome of an operation that can fail: a value, or the error the source throws. */
  datatype Result<+T, +E> = Ok(value: T) | Err(error: E)

  /** The value of `m` at `k`, or `default` when `k` is absent (JavaScript's `m[k] || default`
      for an array-valued map, whose arrays are always truthy). */
  function GetOr<K, V>(m: map<K, V>, k: K, default: V): (v: V)
    ensures k in m ==> v == m[k]
    ensures k !in m ==> v == default
  {
    if k in m then m[k] else default
  }

  /** The id a store with generated keys assigns next: the counter `from`, moved past any id
      already in use. In a store whose counter is above every key this is the counter itself. */
  function FreshKey<V>(m: map<nat, V>, from: nat): (id: nat)
    ensures id !in m && id >= from
    ensures (forall k :: k in m ==> k < from) ==> id == from
    decreases |m.Keys|
  {
    if from in m then
      var rest := m - {from};
      assert |rest.Keys| < |m.Keys| by {
        assert rest.Keys == m.Keys - {from};
      }
      FreshKey(rest, from + 1)
    else from
  }
}
